=== FILE: README.md ===
# vuex-orm relation descriptors, modelled in Dafny

This project models the relation-descriptor layer of vuex-orm's normaliser
and query engine, and proves properties of the model. It has three parts.

- **`Relation.addConstraint`** is the eager-load path logic every relation
  shares (module `Relation`, with `Paths` for `split('.')`/`join('.')`).
  - A dotted load name is forwarded without its first segment as a nested
    `with`.
  - A single-segment name runs the optional constraint callback. A boolean
    result becomes a `where` gate.
- **`HasManyThrough`** covers `fill`, `make`, `attach` and `load` (module
  `HasManyThrough`). `load` is the two-hop join through the intermediate
  table. It is stated over a minimal query (module `Query`): an entity
  name, `where` predicates combined by AND, and `with` paths. `get` is
  the entity's table filtered by every predicate, in table order.
- **Morph-many normalisation** is modelled in modules `Schema`, `Tables`,
  `Normalizer` and `NormalizerFacts`. A nested record is broken down
  depth first into flat rows, children before parents.
  - Each relation's children get the parent's keys attached. For
    morph-many that is the foreign id and the type discriminator, each
    filled only where missing. For has-many the foreign key is set to the
    parent's key.
  - The parent row keeps the ordered list of child keys.
  - Every row carries `$id` equal to its id.

  Module `MorphManyCreate` proves, for each morph-many create scenario of
  the repository's test suite, the exact store the create leaves.

Values are a closed JavaScript-value datatype (`Values.Value`):
- a row is a map from field name to value, and a missing field reads as
  `Undefined`;
- a table is the sequence of its rows in insertion order;
- the store maps entity names to tables.

A row is addressed by its `$id` value, with no stringification. The tests'
expected stores show `$id: 1` as a number.

Errors are explicit `Result`s. An unknown entity gives `UnknownEntity`. A
record that is not an object, or a root that is neither an object nor an
array, gives `MalformedInput`. A record without an id gives `MissingKey`.

## Model

| member | source | states |
|---|---|---|
| Paths.Split | src/attributes/relations/Relation.ts:20 | `name.split('.')` yields at least one part and no part contains a dot |
| Paths.JoinSplit | src/attributes/relations/Relation.ts:20-25 | joining the parts of a split with `.` gives back the original name |
| Paths.SplitJoin | src/attributes/relations/Relation.ts:20-25 | splitting a join of dot-free parts gives back the parts |
| Paths.Tail | src/attributes/relations/Relation.ts:22-25 | the forwarded path (split, drop the head, rejoin) is the text after the first dot and has one segment fewer |
| Paths.TailSegments | src/attributes/relations/Relation.ts:23-25 | the forwarded path's segments are exactly the name's segments without the first |
| Query.Where | src/attributes/relations/Relation.ts:33 | adding a `where` makes a row admitted exactly when it passes the old predicates and the new one |
| Query.With | src/attributes/relations/Relation.ts:25 | adding a `with` appends the path and changes nothing else |
| Query.Get | src/attributes/relations/HasManyThrough.ts:115 | `get` fails only for an unknown entity; otherwise it is an in-order subsequence of the table holding exactly the admitted rows |
| Query.GetCounts | src/attributes/relations/HasManyThrough.ts:115 | `get` keeps every admitted row as often as the table holds it, and no unadmitted row |
| Seqs.Filter | src/attributes/relations/HasManyThrough.ts:87-89 | `filter` returns an in-order subsequence of its input holding every passing element and only passing elements |
| Seqs.Map | src/attributes/relations/HasManyThrough.ts:107 | `map` keeps the length and applies the function at every index |
| Values.ObjectLikeIsTruthyObject | src/attributes/relations/HasManyThrough.ts:88 | the `record && typeof record === 'object'` test, with truthiness and `typeof` defined on every value, holds exactly for arrays and plain objects; `null` fails it |
| Seqs.FilterCounts | src/attributes/relations/HasManyThrough.ts:87-89 | `filter` keeps every passing element exactly as often as the input holds it, and no failing element |
| Query.GateTrueKeepsGet | src/attributes/relations/Relation.ts:33 | a `where(() => true)` gate leaves `get` unchanged |
| Query.GateFalseEmptiesGet | src/attributes/relations/Relation.ts:33 | a `where(() => false)` gate makes `get` empty |
| Relation.AddConstraint | src/attributes/relations/Relation.ts:19-35 | dotted name: same wheres, the remainder after the first dot appended to the withs; single segment: withs unchanged, no constraint or a non-boolean result leaves the query as it was, a boolean result adds exactly that gate |
| Relation.DottedIgnoresConstraint | src/attributes/relations/Relation.ts:22-28 | for a dotted name the constraint is never consulted: any two constraints give the same query |
| Relation.TrueConstraintKeepsGet | src/attributes/relations/Relation.ts:30-34 | a single-segment load whose constraint returns `true` leaves the rows of `get` unchanged |
| Relation.FalseConstraintEmptiesGet | src/attributes/relations/Relation.ts:32-34 | a single-segment load whose constraint returns `false` makes `get` return nothing |
| Relation.Forwarded | src/attributes/relations/Relation.ts:20-25 | repeated forwarding ends: the chain of forwarded names has one entry per segment and ends in a single-segment name |
| HasManyThrough.Fill | src/attributes/relations/HasManyThrough.ts:66-68 | an array passes through unchanged; anything else becomes `[]` |
| HasManyThrough.Make | src/attributes/relations/HasManyThrough.ts:74-92 | `[]` for undefined, a non-array or an empty array; otherwise exactly the object-like elements, in input order, each as often as the input holds it and no other value |
| HasManyThrough.Attach | src/attributes/relations/HasManyThrough.ts:97-99 | the record and the normalised data come back unchanged |
| HasManyThrough.ThroughIds | src/attributes/relations/HasManyThrough.ts:105-107 | the collected ids are exactly the `secondLocalKey` values of through rows whose `firstKey` equals the record's `localKey` |
| HasManyThrough.LoadQuery | src/attributes/relations/HasManyThrough.ts:109-113 | the related query's first `where` is the join filter on `secondKey` over the through ids |
| HasManyThrough.Load | src/attributes/relations/HasManyThrough.ts:104-116 | `load` succeeds exactly when both tables exist, and returns a subsequence of the related table |
| HasManyThrough.LoadIsJoin | src/attributes/relations/HasManyThrough.ts:104-116 | with a single-segment name and no rejecting constraint, `load` returns exactly the related rows joined to the record through some through row, in table order, each as often as the related table holds it |
| HasManyThrough.JoinAdmits | src/attributes/relations/HasManyThrough.ts:105-111 | the join filter admits a related row exactly when some through row matching the record's `localKey` carries its `secondKey` value |
| HasManyThrough.JoinMembers | src/attributes/relations/HasManyThrough.ts:109-115 | the unconstrained join holds exactly the joined related rows, as a subsequence of the related table |
| HasManyThrough.JoinCounts | src/attributes/relations/HasManyThrough.ts:109-115 | the unconstrained join keeps each joined related row as often as the table holds it, and no other row |
| HasManyThrough.LoadFalseConstraintEmpty | src/attributes/relations/HasManyThrough.ts:113-115 | a constraint returning `false` makes `load` return nothing |
| HasManyThrough.LoadDottedForwards | src/attributes/relations/HasManyThrough.ts:111-115 | with a dotted name the join filter is all there is and only the path remainder is added as a nested `with` |
| HasManyThrough.LoadNoThroughMatch | src/attributes/relations/HasManyThrough.ts:107-111 | if no through row matches the record's local key, `load` returns nothing, whatever the constraint |
| HasManyThrough.LoadNoDuplicates | src/attributes/relations/HasManyThrough.ts:109-111 | several through rows naming the same id never duplicate a related row |
| HasManyThrough.UserPostsExample | src/attributes/relations/HasManyThrough.ts:104-116 | through `{user_id: 10, post_id: 100}`, loading from user 10 yields exactly post 100 |
| Tables.Lookup | test/unit/repo/repo/Repo_Create_MorphMany.spec.js:58-67 | a looked-up row carries the asked `$id` and is one of the table's rows |
| Tables.LookupNone | test/unit/repo/repo/Repo_Create_MorphMany.spec.js:58-67 | a lookup comes back empty exactly when no row carries the asked `$id` |
| Tables.Find | test/unit/repo/repo/Repo_Create_MorphMany.spec.js:58-67 | a row is found by its `$id`; the first such row, or none when no row carries it |
| Tables.Upsert | test/unit/repo/repo/Repo_Create_MorphMany.spec.js:58-67 | creating a row: its `$id` then addresses the row merged over any existing one; other keys are unaffected; no two rows share an `$id` afterwards (the cited test shows only the keyed shape of a table created from empty; merging into an existing row follows the design's rule that a record with a known id is merged into it) |
| Tables.UpsertIdempotent | test/unit/repo/repo/Repo_Create_MorphMany.spec.js:58-67 | creating the same row twice leaves the table as creating it once (a consequence of the same merge rule; the cited test shows only the keyed shape) |
| Tables.UpsertAll | test/unit/repo/repo/Repo_Create_MorphMany.spec.js:58-67 | creating rows one after another into a keyed table leaves it keyed: no two rows share an `$id` |
| Tables.UpsertAllExisting | test/unit/repo/repo/Repo_Create_MorphMany.spec.js:58-67 | creating rows whose keys are held, once each, by the trailing rows of a table merges each into its row in place; length and order are kept |
| Tables.UpsertFresh | test/unit/repo/repo/Repo_Create_MorphMany.spec.js:134-145 | a row with a new `$id` is appended after the existing rows |
| Normalizer.FlatFields | test/unit/repo/repo/Repo_Create_MorphMany.spec.js:60-65 | the filled fields of a record hold every declared field name |
| Normalizer.FlatRow | test/unit/repo/repo/Repo_Create_MorphMany.spec.js:60-65 | a record's stored row carries `$id` equal to its id |
| Normalizer.RecordKeys | src/attributes/relations/Relation.ts:9 | the keys of the children given as records are no more than the children, and are all the children's keys when every child is a record |
| Normalizer.FillField | test/unit/repo/repo/Repo_Create_MorphMany.spec.js:32-39 | an attribute keeps its value or takes its default when undefined; a relation keeps the child keys of an array, and otherwise `[]` |
| Normalizer.AttachRow | test/unit/repo/repo/Repo_Create_MorphMany.spec.js:264-281 | morph-many sets the id to the parent's key and the type to the parent's entity, each only when missing; has-many sets its foreign key to the parent's key, replacing any given value; has-many-through changes nothing; no other field changes |
| Normalizer.Attach | test/unit/repo/repo/Repo_Create_MorphMany.spec.js:196-213 | exactly the related rows whose `$id` is among the children's keys get their keys attached; every other table and row is unchanged |
| Normalizer.RecordKeysMembers | src/attributes/relations/Relation.ts:9 | the keys a relation attaches to are exactly the keys of the children given as records in this call's data; a bare key contributes none |
| Normalizer.ReattachRow | test/unit/repo/repo/Repo_Create_MorphMany.spec.js:264-281 | attaching a parent again to a row it was attached to, overwritten by that row's own flat row, gives back the first attached row |
| Normalizer.AttachKeepsKeys | test/unit/repo/repo/Repo_Create_MorphMany.spec.js:58-67 | attaching keys never moves a row's `$id` and keeps tables keyed |
| Normalizer.Put | test/unit/repo/repo/Repo_Create_MorphMany.spec.js:58-67 | storing a row changes only its entity's table, by an upsert, and keeps the store keyed |
| Normalizer.PutFacts | test/unit/repo/repo/Repo_Create_MorphMany.spec.js:58-67 | after storing a row, its `$id` addresses a row holding all of it, and every row addressable before still is |
| Normalizer.NormalizeRecord | test/unit/repo/repo/Repo_Create_MorphMany.spec.js:50-67 | the three error cases; on success the key is the record's id, its table then holds a row extending the flat row with `$id` = id, only the entity and relation targets change; in a well-formed schema (no relation writes `$id`) nothing addressable is lost and a keyed store stays keyed |
| Normalizer.NormalizeFields | test/unit/repo/repo/Repo_Create_MorphMany.spec.js:50-67 | the parent row is the record's flat row, and only relation-target tables change; in a well-formed schema (no relation writes `$id`) nothing addressable is lost and a keyed store stays keyed |
| Normalizer.NormalizeList | test/unit/repo/repo/Repo_Create_MorphMany.spec.js:50-67 | the keys are the elements' keys in input order and only the entity and relation targets change; in a well-formed schema (no relation writes `$id`) every object element's row is addressable afterwards, nothing addressable is lost and a keyed store stays keyed |
| Normalizer.Create | test/unit/repo/repo/Repo_Create_MorphMany.spec.js:69 | the root is one record or an array of records; anything else is malformed; on success an object root's row is addressable by its key and only the entity and relation-target tables change; in a well-formed schema (no relation writes `$id`) every element of an array root is addressable, no addressable row is lost, and a keyed store stays keyed |
| Normalizer.CreateAll | test/unit/repo/repo/Repo_Create_MorphMany.spec.js:118-147 | a non-object root is an error, and only the entity and relation targets change; in a well-formed schema (no relation writes `$id`) every root's row is addressable afterwards, no addressable row is lost and a keyed store stays keyed |
| NormalizerFacts.AttrFields | test/unit/repo/repo/Repo_Create_MorphMany.spec.js:32-39 | attribute-only fields normalise to their filled values and leave the store alone |
| NormalizerFacts.LeafRecord | test/unit/repo/repo/Repo_Create_MorphMany.spec.js:332-344 | a relation-free record with a new id is appended as exactly its flat row |
| NormalizerFacts.LeafRecordPut | test/unit/repo/repo/Repo_Create_MorphMany.spec.js:332-344 | a relation-free record is stored as its flat row by one upsert, whether or not its id is already present |
| NormalizerFacts.LeafListUpserts | test/unit/repo/repo/Repo_Create_MorphMany.spec.js:50-67 | relation-free records are created one after another, each upserted as its flat row, and their keys are returned in order |
| NormalizerFacts.LeafRoots | test/unit/repo/repo/Repo_Create_MorphMany.spec.js:332-344 | roots of a relation-free entity with distinct new ids are stored as exactly their flat rows, in order; nothing is attached and no other table changes |
| NormalizerFacts.LeafList | test/unit/repo/repo/Repo_Create_MorphMany.spec.js:50-67 | relation-free records with distinct new ids are appended as their flat rows, in order, and their keys are returned |
| NormalizerFacts.OneRelationRecord | test/unit/repo/repo/Repo_Create_MorphMany.spec.js:50-67 | with one relation field, the children are normalised and attached before the parent row is stored |
| NormalizerFacts.AttachFresh | test/unit/repo/repo/Repo_Create_MorphMany.spec.js:134-145 | attaching to freshly appended children changes exactly those children |
| NormalizerFacts.AttachAppended | test/unit/repo/repo/Repo_Create_MorphMany.spec.js:134-145 | attaching to rows appended under their own keys, after rows holding none of them, changes exactly the appended rows |
| NormalizerFacts.NestedLeaves | test/unit/repo/repo/Repo_Create_MorphMany.spec.js:196-213 | a parent with one relation to relation-free children: the children are appended with keys attached, then the parent row is appended |
| NormalizerFacts.CreateAllAppend | test/unit/repo/repo/Repo_Create_MorphMany.spec.js:118-145 | creating roots `a + b` is creating `a` and then `b` from the resulting store; an error in `a` stops before `b` |
| NormalizerFacts.FlatFieldsAt | test/unit/repo/repo/Repo_Create_MorphMany.spec.js:32-39 | a flat row holds each declared field as filled |
| NormalizerFacts.FlatFieldsDomain | test/unit/repo/repo/Repo_Create_MorphMany.spec.js:62-66 | a flat row holds exactly the declared field names |
| NormalizerFacts.MorphFieldsAttached | test/unit/repo/repo/Repo_Create_MorphMany.spec.js:264-281 | when both morph fields are declared as attributes defaulting to `null`, an attached child's id and type are the parent's key and entity exactly where the raw record left them absent or `null`, and the raw values otherwise |
| NormalizerFacts.CreatedRow | test/unit/repo/repo/Repo_Create_MorphMany.spec.js:58-67 | the created row is addressed by the id with `$id` = id; a declared `id` attribute equals `$id`; a relation given an array lists its children's keys in input order |
| MorphManyCreate.CommentFlatRow | test/unit/repo/repo/Repo_Create_MorphMany.spec.js:32-39 | a comment's row holds what was given and `null` for missing morph fields |
| MorphManyCreate.CommentAttached | test/unit/repo/repo/Repo_Create_MorphMany.spec.js:264-281 | the post's morph relation fills exactly the `null` morph fields |
| MorphManyCreate.PostCreated | test/unit/repo/repo/Repo_Create_MorphMany.spec.js:196-213 | a post and its comments: comments appended with morph keys filled where missing, then the post row listing them |
| MorphManyCreate.CreatesMorphManyData | test/unit/repo/repo/Repo_Create_MorphMany.spec.js:50-71 | comments that carry both morph fields keep them; the whole resulting store, `videos` empty |
| MorphManyCreate.CreatesManyMorphManyData | test/unit/repo/repo/Repo_Create_MorphMany.spec.js:118-149 | two posts create the union of their rows; each post lists only its own comments |
| MorphManyCreate.GeneratesMorphKeys | test/unit/repo/repo/Repo_Create_MorphMany.spec.js:196-217 | comments without morph fields get `commentable_id` 1 and `commentable_type` `'posts'` |
| MorphManyCreate.GeneratesOnlyMissingMorphKeys | test/unit/repo/repo/Repo_Create_MorphMany.spec.js:264-285 | a given `commentable_id` (2, while the post is 1) is kept and only the type is added |
| MorphManyCreate.NoMorphKeysWithoutParent | test/unit/repo/repo/Repo_Create_MorphMany.spec.js:332-348 | comments created directly keep both morph fields `null` and other tables stay empty |
| MorphManyCreate.BareKeyAttachesNothing | src/attributes/relations/Relation.ts:9 | a post naming an already stored comment by its bare key lists the key but leaves the stored comment's morph fields `null` |
| MorphManyCreate.GeneratesDeepMorphKeys | test/unit/repo/repo/Repo_Create_MorphMany.spec.js:408-436 | users → posts → comments: the type is the immediate parent `'posts'`, given ids are kept, the user row lists `posts: [5]`, `videos` stays empty |
| Idempotence.PutIdempotent | test/unit/repo/repo/Repo_Create_MorphMany.spec.js:58-67 | storing the same row twice in a keyed store leaves the store the first put left |
| Idempotence.LeafRecordIdempotent | test/unit/repo/repo/Repo_Create_MorphMany.spec.js:58-67 | creating a relation-free record again into the store its first creation left changes nothing |
| Idempotence.NestedLeavesIdempotent | test/unit/repo/repo/Repo_Create_MorphMany.spec.js:196-213 | creating a post with new comments succeeds, and creating it again into the resulting store changes nothing: the comments merge into their rows, the same keys are attached again, the post row merges into itself |

## Left out

- Model instantiation (`new this.related(record)`, HasManyThrough.ts line 90) is the identity. Resolving related and through entities (lines 53-54) is replaced by entity names given directly.
- Repo internals are not part of this model: state wiring, the `false` flag passed to the constructor, and eager-load materialisation of `with` paths by `get`. `Query.Get` filters rows and records the `with` paths without loading them.
- The constraint callback is a function from the query to an optional boolean. Any side effects it has on the query are not modelled.
- The HasMany and MorphMany descriptor sources are not part of this model. Their `fill` and `attach` follow the expected stores of the morph-many tests and the design's description: has-many sets every child's foreign key to the parent's key, morph-many fills its two fields where missing.
- Normalizer.AttachRow: a morph key counts as missing when it is absent or `null`; the MorphMany source may instead test JavaScript truthiness (so `0`, `''` or `false` would also be overwritten). The tests only exercise absent keys.
- Normalizer.AttachRow: attaching runs on the child's flat row, after declared defaults are filled. A morph field declared with a non-`null` default therefore counts as given, keeps that default and is not set to the parent's key or entity. The discriminator property is proved (`NormalizerFacts.MorphFieldsAttached`) when both morph fields default to `null`, as in every schema of the test suite.
- Primary-key generation for records without an id is left out: such a record is the `MissingKey` error.
- Tables.UpsertFresh: a new `$id` is appended after the existing rows, so a table lists rows in insertion order. The program's tables are objects keyed by the id's string, and JavaScript lists integer-like keys in ascending numeric order whatever the insertion order. Creating id 2 and then id 1 therefore gives `[2, 1]` from `Query.Get` and `HasManyThrough.Load` in the model where the program gives `[1, 2]`.
- Table keys are the id values themselves, not their string forms. Equality of values is structural, standing in for JavaScript `===` and `includes`.
- Attribute casting and the other relation kinds (hasOne, belongsTo, morphOne, morphTo, many-to-many) are left out.
- The test harness (`createApplication`, `createState`, class declarations) becomes the constant schemas and empty stores in `MorphManyCreate`.
- The primary key is always the field `id`, and a row's `$id` is read from it. Custom primary keys, composite keys and the id attribute's own configuration are not modelled.
- Idempotence.NestedLeavesIdempotent: re-normalising the same data is proved only for relation-free records and for a parent with one relation whose children are relation-free records with new, distinct ids. Deeper nesting, several relations and children already stored are not covered by a lemma.

=== FILE: has_many_through.dfy ===
/** The has-many-through descriptor: a read-side two-hop join from a parent
    row through an intermediate table to the related table. */
module HasManyThrough {
  import opened Values
  import opened Query
  import opened Relation
  import Seqs
  import Paths

  /** The descriptor's parameters; `related` and `through` are entity
      names, already resolved. */
  datatype HasManyThrough = HasManyThrough(
    related: string,
    through: string,
    firstKey: string,       // on the through row, points at the parent's localKey
    secondKey: string,      // on the related row, matched against secondLocalKey
    localKey: string,       // on the parent row
    secondLocalKey: string) // on the through row

  /** `fill`: an array passes through untouched, anything else becomes `[]`. */
  function Fill(v: Value): (r: Value)
    ensures r.Arr?
    ensures v.Arr? ==> r == v
    ensures !v.Arr? ==> r.items == []
  {
    if v.Arr? then v else Arr([])
  }

  /** `make`: the object-like elements of an array, in order; `[]` for
      `undefined`, a non-array or an empty array. Instantiating the related
      model is the identity here. */
  function Make(v: Value): (r: seq<Value>)
    ensures !v.Arr? ==> r == []
    ensures v.Arr? ==> |r| <= |v.items| && Seqs.SubSeq(r, v.items)
    ensures v.Arr? ==> forall i :: 0 <= i < |r| ==> ObjectLike(r[i]) && r[i] in v.items
    ensures v.Arr? ==> forall i :: 0 <= i < |v.items| && ObjectLike(v.items[i]) ==> v.items[i] in r
    ensures v.Arr? ==> forall x :: multiset(r)[x] == if ObjectLike(x) then multiset(v.items)[x] else 0
  {
    if v == Undefined then []
    else if !v.Arr? then []
    else if |v.items| == 0 then []
    else
      Seqs.FilterCounts(v.items, ObjectLike);
      Seqs.Filter(v.items, ObjectLike)
  }

  /** `attach`: has-many-through attaches no key during normalisation; the
      record and the normalised data come back as they were. */
  function Attach(key: Value, record: Row, data: Store): (r: (Row, Store))
    ensures r.0 == record && r.1 == data
  {
    (record, data)
  }

  /** The `secondLocalKey` values of the through rows whose `firstKey`
      equals the parent's `localKey`, in through-table order. */
  function ThroughIds(store: Store, rel: HasManyThrough, record: Row): (r: Result<seq<Value>>)
    ensures r.Ok? <==> rel.through in store
    ensures r.Ok? ==> forall i :: 0 <= i < |r.value| ==>
      exists t :: t in store[rel.through] && Field(t, rel.firstKey) == Field(record, rel.localKey) &&
        r.value[i] == Field(t, rel.secondLocalKey)
    ensures r.Ok? ==> forall t :: t in store[rel.through] && Field(t, rel.firstKey) == Field(record, rel.localKey) ==>
      Field(t, rel.secondLocalKey) in r.value
  {
    var rows :- Get(store, Where(New(rel.through), FieldEquals(rel.firstKey, Field(record, rel.localKey))));
    Seqs.SubSeqMembers(rows, store[rel.through]);
    var ids := Seqs.Map(rows, (t: Row) => Field(t, rel.secondLocalKey));
    assert forall i :: 0 <= i < |rows| ==> Holds(FieldEquals(rel.firstKey, Field(record, rel.localKey)), rows[i]);
    assert forall t :: t in store[rel.through] && Field(t, rel.firstKey) == Field(record, rel.localKey) ==> t in rows;
    assert forall t :: t in rows ==> Field(t, rel.secondLocalKey) in ids by {
      forall t | t in rows ensures Field(t, rel.secondLocalKey) in ids {
        var k :| 0 <= k < |rows| && rows[k] == t;
        assert ids[k] == Field(t, rel.secondLocalKey);
      }
    }
    Ok(ids)
  }

  /** The query `load` runs against the related table: the join filter,
      then the load's constraint. */
  function LoadQuery(store: Store, rel: HasManyThrough, record: Row, load: LoadRequest): (r: Result<Query>)
    ensures r.Ok? <==> rel.through in store
    ensures r.Ok? ==> r.value.entity == rel.related
    ensures r.Ok? ==> |r.value.wheres| >= 1 && r.value.wheres[0] == FieldAmong(rel.secondKey, ThroughIds(store, rel, record).value)
  {
    var ids :- ThroughIds(store, rel, record);
    Ok(AddConstraint(Where(New(rel.related), FieldAmong(rel.secondKey, ids)), load))
  }

  /** `load`: the related rows whose `secondKey` is among the through ids,
      under the load's constraint. */
  function Load(store: Store, rel: HasManyThrough, record: Row, load: LoadRequest): (r: Result<seq<Row>>)
    ensures r.Ok? <==> rel.through in store && rel.related in store
    ensures r.Ok? ==> Seqs.SubSeq(r.value, store[rel.related])
  {
    var q :- LoadQuery(store, rel, record, load);
    Get(store, q)
  }

  /** A related row is joined to the parent through some through row. */
  ghost predicate Joined(store: Store, rel: HasManyThrough, record: Row, x: Row)
    requires rel.through in store
  {
    exists t :: t in store[rel.through] &&
      Field(t, rel.firstKey) == Field(record, rel.localKey) &&
      Field(t, rel.secondLocalKey) == Field(x, rel.secondKey)
  }

  /** The two-hop join: the related rows whose `secondKey` value is among
      the `secondLocalKey` values of the through rows matching the parent's
      `localKey` -- exactly those, in related-table order. */
  lemma {:induction false} LoadIsJoin(store: Store, rel: HasManyThrough, record: Row, load: LoadRequest)
    requires rel.through in store && rel.related in store
    requires SingleSegment(load.name)
    requires load.constraint.None? || load.constraint.value(JoinQuery(store, rel, record)) != Some(false)
    ensures Load(store, rel, record, load).Ok?
    ensures var r := Load(store, rel, record, load).value;
      Seqs.SubSeq(r, store[rel.related]) &&
      (forall x :: x in r ==> x in store[rel.related] && Joined(store, rel, record, x)) &&
      (forall x :: x in store[rel.related] && Joined(store, rel, record, x) ==> x in r) &&
      (forall x :: multiset(r)[x] == if Joined(store, rel, record, x) then multiset(store[rel.related])[x] else 0)
  {
    var q := JoinQuery(store, rel, record);
    assert LoadQuery(store, rel, record, load) == Ok(AddConstraint(q, load));
    if load.constraint.Some? && load.constraint.value(q).Some? {
      TrueConstraintKeepsGet(store, q, load);
    }
    assert Load(store, rel, record, load) == Get(store, q);
    JoinMembers(store, rel, record);
    JoinCounts(store, rel, record);
  }

  /** The join query admits exactly the joined rows. */
  lemma JoinAdmits(store: Store, rel: HasManyThrough, record: Row)
    requires rel.through in store
    ensures forall x :: Admits(JoinQuery(store, rel, record).wheres, x) == Joined(store, rel, record, x)
  {
    var q := JoinQuery(store, rel, record);
    var ids := ThroughIds(store, rel, record).value;
    forall x ensures Admits(q.wheres, x) == Joined(store, rel, record, x) {
      assert Admits(q.wheres, x) <==> Field(x, rel.secondKey) in ids;
      if Field(x, rel.secondKey) in ids {
        var k :| 0 <= k < |ids| && ids[k] == Field(x, rel.secondKey);
        assert Joined(store, rel, record, x);
      }
    }
  }

  /** The plain join holds exactly the joined related rows, in related-table
      order. */
  lemma JoinMembers(store: Store, rel: HasManyThrough, record: Row)
    requires rel.through in store && rel.related in store
    ensures var r := Get(store, JoinQuery(store, rel, record)).value;
      Seqs.SubSeq(r, store[rel.related]) &&
      (forall x :: x in r ==> x in store[rel.related] && Joined(store, rel, record, x)) &&
      (forall x :: x in store[rel.related] && Joined(store, rel, record, x) ==> x in r)
  {
    var q := JoinQuery(store, rel, record);
    var r := Get(store, q).value;
    JoinAdmits(store, rel, record);
    Seqs.SubSeqMembers(r, store[rel.related]);
    forall x | x in r ensures Admits(q.wheres, x) {
      var k :| 0 <= k < |r| && r[k] == x;
    }
    forall x | x in store[rel.related] && Admits(q.wheres, x) ensures x in r {
      var k :| 0 <= k < |store[rel.related]| && store[rel.related][k] == x;
    }
  }

  /** The plain join keeps each joined related row as often as the table
      holds it, and no other row. */
  lemma JoinCounts(store: Store, rel: HasManyThrough, record: Row)
    requires rel.through in store && rel.related in store
    ensures forall x ::
      multiset(Get(store, JoinQuery(store, rel, record)).value)[x] ==
        if Joined(store, rel, record, x) then multiset(store[rel.related])[x] else 0
  {
    GetCounts(store, JoinQuery(store, rel, record));
    JoinAdmits(store, rel, record);
  }

  /** The unconstrained join query on the related table. */
  function JoinQuery(store: Store, rel: HasManyThrough, record: Row): (q: Query)
    requires rel.through in store
    ensures q.entity == rel.related && q.withs == []
    ensures q.wheres == [FieldAmong(rel.secondKey, ThroughIds(store, rel, record).value)]
  {
    Where(New(rel.related), FieldAmong(rel.secondKey, ThroughIds(store, rel, record).value))
  }

  /** A constraint returning `false` on a single-segment load empties it. */
  lemma {:induction false} LoadFalseConstraintEmpty(store: Store, rel: HasManyThrough, record: Row, load: LoadRequest)
    requires rel.through in store && rel.related in store
    requires SingleSegment(load.name)
    requires load.constraint.Some? && load.constraint.value(JoinQuery(store, rel, record)) == Some(false)
    ensures Load(store, rel, record, load) == Ok([])
  {
    FalseConstraintEmptiesGet(store, JoinQuery(store, rel, record), load);
  }

  /** With a dotted name the join filter is all there is: the remainder of
      the name becomes the one nested eager load and the rows are those of
      the plain join. */
  lemma {:induction false} LoadDottedForwards(store: Store, rel: HasManyThrough, record: Row, load: LoadRequest)
    requires rel.through in store && rel.related in store
    requires !SingleSegment(load.name)
    ensures LoadQuery(store, rel, record, load).value.wheres == JoinQuery(store, rel, record).wheres
    ensures LoadQuery(store, rel, record, load).value.withs == [Paths.Tail(load.name)]
    ensures Load(store, rel, record, load) == Get(store, JoinQuery(store, rel, record))
  {
    var q := JoinQuery(store, rel, record);
    assert LoadQuery(store, rel, record, load) == Ok(AddConstraint(q, load));
    GetIgnoresWiths(store, q, Paths.Tail(load.name));
  }

  /** No through row matches the parent: nothing is loaded, whatever the
      constraint. */
  lemma {:induction false} LoadNoThroughMatch(store: Store, rel: HasManyThrough, record: Row, load: LoadRequest)
    requires rel.through in store && rel.related in store
    requires forall t :: t in store[rel.through] ==> Field(t, rel.firstKey) != Field(record, rel.localKey)
    ensures Load(store, rel, record, load) == Ok([])
  {
    var q := LoadQuery(store, rel, record, load).value;
    var ids := ThroughIds(store, rel, record).value;
    assert |ids| == 0;
    Seqs.FilterNone(store[rel.related], row => Admits(q.wheres, row));
  }

  /** Several through rows naming the same id never duplicate a related
      row: the result is duplicate-free whenever the related table is. */
  lemma {:induction false} LoadNoDuplicates(store: Store, rel: HasManyThrough, record: Row, load: LoadRequest)
    requires rel.through in store && rel.related in store
    requires Seqs.Distinct(store[rel.related])
    ensures Seqs.Distinct(Load(store, rel, record, load).value)
  {
    Seqs.SubSeqDistinct(Load(store, rel, record, load).value, store[rel.related]);
  }

  /** The user/post example: the through table `user_posts` holds
      `{user_id: 10, post_id: 100}`, the posts table holds `{id: 100}`,
      and loading from the user with `id` 10 yields that post. */
  lemma UserPostsExample()
    ensures
      var post := map["id" := Num(100)];
      var store := map["user_posts" := [map["user_id" := Num(10), "post_id" := Num(100)]], "posts" := [post]];
      var rel := HasManyThrough("posts", "user_posts", "user_id", "id", "id", "post_id");
      Load(store, rel, map["id" := Num(10)], LoadRequest("posts", None)) == Ok([post])
  {
    var post := map["id" := Num(100)];
    var link := map["user_id" := Num(10), "post_id" := Num(100)];
    var store := map["user_posts" := [link], "posts" := [post]];
    var rel := HasManyThrough("posts", "user_posts", "user_id", "id", "id", "post_id");
    var user := map["id" := Num(10)];
    var load := LoadRequest("posts", None);
    assert Paths.Split("posts") == ["posts"];
    LoadIsJoin(store, rel, user, load);
    var r := Load(store, rel, user, load).value;
    assert Joined(store, rel, user, post) by {
      assert Field(link, rel.firstKey) == Field(user, rel.localKey);
      assert Field(link, rel.secondLocalKey) == Field(post, rel.secondKey);
    }
    assert post in r;
    assert |r| <= 1 by {
      Seqs.SubSeqMembers(r, store["posts"]);
      assert Seqs.SubSeq(r, [post]);
    }
    assert r == [post];
  }
}

=== FILE: idempotence.dfy ===
/** Re-normalisation: creating the same data a second time, into the store
    the first `create` left, leaves that store as it is. */
module Idempotence {
  import opened Values
  import opened Schema
  import opened Tables
  import opened Normalizer
  import opened NormalizerFacts

  /** A record of a relation-free entity, created twice into a keyed
      store, leaves the store the first creation left. */
  lemma LeafRecordIdempotent(schema: Schema, entity: string, v: Value, store: Store)
    requires entity in schema && AttrsFrom(schema, entity, 0) && KeyedStore(store)
    requires v.Obj?
    ensures var once := Create(schema, entity, v, store);
      once.Ok? ==> Create(schema, entity, v, once.value) == once
  {
    if !Missing(v.fields, PrimaryKey) {
      var id := v.fields[PrimaryKey];
      var row := FlatRow(schema, entity, v.fields, id);
      LeafRecordPut(schema, entity, v, store);
      var s1 := Put(store, entity, row);
      LeafRecordPut(schema, entity, v, s1);
      PutIdempotent(store, entity, row);
    }
  }

  /** Putting the same row twice into a keyed store leaves the store the
      first put left. */
  lemma PutIdempotent(store: Store, entity: string, row: Row)
    requires KeyedStore(store)
    ensures Put(Put(store, entity, row), entity, row) == Put(store, entity, row)
  {
    assert Keyed(TableOf(store, entity));
    UpsertIdempotent(TableOf(store, entity), row);
  }

  /** The parent of `NestedLeaves`, created twice into a keyed store of a
      well-formed schema: the second creation merges every flat row into
      the row it produced, attaches the same keys again and changes
      nothing. */
  lemma {:induction false} NestedLeavesIdempotent(schema: Schema, entity: string, v: Value, r: nat, store: Store)
    requires WellFormed(schema) && KeyedStore(store)
    requires entity in schema && r < |schema[entity]|
    requires forall j :: 0 <= j < |schema[entity]| && j != r ==> schema[entity][j].kind.Attr?
    requires schema[entity][r].kind.IsRelation() && !schema[entity][r].kind.Through?
    requires var rel := schema[entity][r].kind.Related();
      rel in schema && AttrsFrom(schema, rel, 0) && rel in store && rel != entity
    requires v.Obj? && !Missing(v.fields, PrimaryKey) && Field(v.fields, schema[entity][r].name).Arr?
    requires var items := Field(v.fields, schema[entity][r].name).items;
      && (forall j :: 0 <= j < |items| ==> items[j].Obj? && !Missing(items[j].fields, PrimaryKey))
      && (forall j, l :: 0 <= j < l < |items| ==> ChildKey(items[j]) != ChildKey(items[l]))
      && (forall j, t :: 0 <= j < |items| && 0 <= t < |store[schema[entity][r].kind.Related()]| ==>
            KeyOf(store[schema[entity][r].kind.Related()][t]) != ChildKey(items[j]))
    requires forall t :: 0 <= t < |TableOf(store, entity)| ==> KeyOf(TableOf(store, entity)[t]) != v.fields[PrimaryKey]
    ensures var once := Create(schema, entity, v, store);
      once.Ok? && Create(schema, entity, v, once.value) == once
  {
    var kind := schema[entity][r].kind;
    var rel := kind.Related();
    var id := v.fields[PrimaryKey];
    var list := Field(v.fields, schema[entity][r].name);
    var items := list.items;
    var rows := FlatRows(schema, rel, items);
    var attached := AttachedRows(kind, entity, id, rows);
    var parent := FlatRow(schema, entity, v.fields, id);
    NestedLeaves(schema, entity, v, r, store);
    var s3 := store[rel := store[rel] + attached][entity := TableOf(store, entity) + [parent]];
    assert Create(schema, entity, v, store) == Ok(s3);
    var merged := SecondPassChildren(schema, kind, entity, id, items, store, s3);
    var s4 := s3[rel := store[rel] + merged];
    OneRelationRecord(schema, entity, v, r, s3, ChildKeys(items), s4);
    SecondPassAttach(schema, kind, entity, id, v.fields, items, store, s3);
    assert Attach(kind, entity, id, v.fields, RecordKeys(items), s4) == s3;
    SecondPassParent(store, entity, parent, s3);
  }

  /** The second pass over the children: each flat row is merged into the
      row the first pass attached, in place. */
  lemma SecondPassChildren(schema: Schema, kind: Kind, entity: string, id: Value, items: seq<Value>,
                           store: Store, s3: Store) returns (merged: seq<Row>)
    requires kind.IsRelation() && kind.SparesIdKey()
    requires kind.Related() in schema && AttrsFrom(schema, kind.Related(), 0) && kind.Related() in store
    requires forall j :: 0 <= j < |items| ==> items[j].Obj? && !Missing(items[j].fields, PrimaryKey)
    requires forall j, l :: 0 <= j < l < |items| ==> ChildKey(items[j]) != ChildKey(items[l])
    requires forall j, t :: 0 <= j < |items| && 0 <= t < |store[kind.Related()]| ==>
      KeyOf(store[kind.Related()][t]) != ChildKey(items[j])
    requires var rel := kind.Related();
      rel in s3 && s3[rel] == store[rel] + AttachedRows(kind, entity, id, FlatRows(schema, rel, items))
    ensures var rel := kind.Related();
      var rows := FlatRows(schema, rel, items);
      && merged == MergedPrefix(AttachedRows(kind, entity, id, rows), rows, |rows|)
      && NormalizeList(schema, rel, Arr(items), 0, s3) == Ok((ChildKeys(items), s3[rel := store[rel] + merged]))
  {
    var rel := kind.Related();
    var rows := FlatRows(schema, rel, items);
    var attached := AttachedRows(kind, entity, id, rows);
    merged := MergedPrefix(attached, rows, |rows|);
    LeafListUpserts(schema, rel, Arr(items), 0, s3);
    assert items[0..] == items;
    UpsertAttached(kind, entity, id, rows, store[rel]);
  }

  /** Creating rows again, with distinct keys none of `t`'s rows hold, in
      the table they were appended to with a parent attached: each is
      merged into its attached row. */
  lemma UpsertAttached(kind: Kind, entity: string, id: Value, rows: seq<Row>, t: Table)
    requires kind.IsRelation() && kind.SparesIdKey()
    requires forall j, l :: 0 <= j < l < |rows| ==> KeyOf(rows[j]) != KeyOf(rows[l])
    requires forall j, i :: 0 <= j < |rows| && 0 <= i < |t| ==> KeyOf(t[i]) != KeyOf(rows[j])
    ensures var attached := AttachedRows(kind, entity, id, rows);
      UpsertAll(t + attached, rows) == t + MergedPrefix(attached, rows, |rows|)
  {
    var attached := AttachedRows(kind, entity, id, rows);
    AttachedKeys(kind, entity, id, rows);
    UpsertAllExisting(t, attached, rows);
  }

  /** Attaching a parent moves no row's key. */
  lemma AttachedKeys(kind: Kind, parent: string, id: Value, rows: seq<Row>)
    requires kind.IsRelation() && kind.SparesIdKey()
    ensures var attached := AttachedRows(kind, parent, id, rows);
      forall j :: 0 <= j < |rows| ==> KeyOf(attached[j]) == KeyOf(rows[j])
  {
    assert IdKey !in RelationFields(kind);
  }

  /** Attaching the same parent to the merged children gives back the
      rows of the first pass. */
  lemma SecondPassAttach(schema: Schema, kind: Kind, entity: string, id: Value, record: Row, items: seq<Value>,
                         store: Store, s3: Store)
    requires kind.IsRelation() && !kind.Through? && kind.SparesIdKey()
    requires id != Undefined && id != Null
    requires kind.Related() in schema && kind.Related() in store
    requires forall j :: 0 <= j < |items| ==> items[j].Obj?
    requires forall j, t :: 0 <= j < |items| && 0 <= t < |store[kind.Related()]| ==>
      KeyOf(store[kind.Related()][t]) != ChildKey(items[j])
    requires var rel := kind.Related();
      rel in s3 && s3[rel] == store[rel] + AttachedRows(kind, entity, id, FlatRows(schema, rel, items))
    ensures var rel := kind.Related();
      var rows := FlatRows(schema, rel, items);
      var merged := MergedPrefix(AttachedRows(kind, entity, id, rows), rows, |rows|);
      Attach(kind, entity, id, record, RecordKeys(items), s3[rel := store[rel] + merged]) == s3
  {
    var rel := kind.Related();
    var rows := FlatRows(schema, rel, items);
    var keys := ChildKeys(items);
    assert RecordKeys(items) == keys;
    MergedKeys(schema, kind, entity, id, items);
    FreshKeys(store[rel], items);
    ReattachMerged(kind, entity, id, record, keys, store[rel], rows, s3);
  }

  /** Attaching again to rows that were attached and then merged with
      their flat rows, appended after rows holding none of the keys, gives
      back the store of the first attach. */
  lemma ReattachMerged(kind: Kind, entity: string, id: Value, record: Row, keys: seq<Value>,
                       t: Table, rows: seq<Row>, s3: Store)
    requires kind.IsRelation() && !kind.Through? && id != Undefined && id != Null
    requires kind.Related() in s3 && s3[kind.Related()] == t + AttachedRows(kind, entity, id, rows)
    requires forall i :: 0 <= i < |t| ==> KeyOf(t[i]) !in keys
    requires var merged := MergedPrefix(AttachedRows(kind, entity, id, rows), rows, |rows|);
      forall j :: 0 <= j < |merged| ==> KeyOf(merged[j]) in keys
    ensures var merged := MergedPrefix(AttachedRows(kind, entity, id, rows), rows, |rows|);
      Attach(kind, entity, id, record, keys, s3[kind.Related() := t + merged]) == s3
  {
    var rel := kind.Related();
    var attached := AttachedRows(kind, entity, id, rows);
    var merged := MergedPrefix(attached, rows, |rows|);
    var s4 := s3[rel := t + merged];
    AttachFresh(kind, entity, id, record, keys, s4, t, merged);
    ReattachedRows(kind, entity, id, rows);
    assert s4[rel := t + attached] == s3;
  }

  /** The merged children keep the children's keys. */
  lemma MergedKeys(schema: Schema, kind: Kind, entity: string, id: Value, items: seq<Value>)
    requires kind.IsRelation() && kind.SparesIdKey() && kind.Related() in schema
    requires forall j :: 0 <= j < |items| ==> items[j].Obj?
    ensures var rows := FlatRows(schema, kind.Related(), items);
      var merged := MergedPrefix(AttachedRows(kind, entity, id, rows), rows, |rows|);
      forall j :: 0 <= j < |merged| ==> KeyOf(merged[j]) == ChildKeys(items)[j] && KeyOf(merged[j]) in ChildKeys(items)
  {
    var rows := FlatRows(schema, kind.Related(), items);
    var attached := AttachedRows(kind, entity, id, rows);
    forall j | 0 <= j < |rows| ensures KeyOf(attached[j] + rows[j]) == ChildKeys(items)[j] {
      assert IdKey !in RelationFields(kind);
      KeyOfMerge(attached[j], rows[j]);
    }
  }

  /** Attaching again to rows the first attach produced, each overwritten
      by its flat row, gives the first attach's rows. */
  lemma ReattachedRows(kind: Kind, entity: string, id: Value, rows: seq<Row>)
    requires kind.IsRelation() && id != Undefined && id != Null
    ensures var attached := AttachedRows(kind, entity, id, rows);
      AttachedRows(kind, entity, id, MergedPrefix(attached, rows, |rows|)) == attached
  {
    var attached := AttachedRows(kind, entity, id, rows);
    var merged := MergedPrefix(attached, rows, |rows|);
    forall j | 0 <= j < |rows| ensures AttachRow(kind, entity, id, merged[j]) == attached[j] {
      ReattachRow(kind, entity, id, rows[j]);
    }
  }

  /** Merging the parent's flat row again into the table it was appended
      to leaves the store as it is. */
  lemma SecondPassParent(store: Store, entity: string, row: Row, s3: Store)
    requires KeyedStore(store)
    requires forall t :: 0 <= t < |TableOf(store, entity)| ==> KeyOf(TableOf(store, entity)[t]) != KeyOf(row)
    requires entity in s3 && s3[entity] == TableOf(store, entity) + [row]
    ensures Put(s3, entity, row) == s3
  {
    assert Keyed(TableOf(store, entity));
    UpsertFresh(TableOf(store, entity), row);
    UpsertIdempotent(TableOf(store, entity), row);
  }
}

=== FILE: morph_many_create.dfy ===
/** The morph-many create scenarios: posts (and videos) morph-many
    comments through `commentable_id` / `commentable_type`; each scenario
    lemma states the exact store one `create` call leaves, starting from
    empty tables. */
module MorphManyCreate {
  import opened Values
  import opened Schema
  import opened Tables
  import opened Normalizer
  import opened NormalizerFacts

  const Comments: Kind := MorphMany("comments", "commentable_id", "commentable_type")

  /** A comment's two morph fields default to `null`, its body to the
      empty string. */
  const CommentFields: seq<FieldDef> :=
    [FieldDef("id", Attr(Null)), FieldDef("body", Attr(Str(""))),
     FieldDef("commentable_id", Attr(Null)), FieldDef("commentable_type", Attr(Null))]

  const PostFields: seq<FieldDef> := [FieldDef("id", Attr(Null)), FieldDef("comments", Comments)]

  /** Posts and videos each morph-many comments. */
  const Entities: Schema := map["posts" := PostFields, "videos" := PostFields, "comments" := CommentFields]

  const Empty: Store := map["posts" := [], "videos" := [], "comments" := []]

  /** `m` with `f` set to `v`, unless `v` is `undefined` (the key is then
      left out of the literal). */
  function Given(m: map<string, Value>, f: string, v: Value): map<string, Value>
  {
    if v == Undefined then m else m[f := v]
  }

  /** What an attribute defaulting to `null` stores for `v`. */
  function OrNull(v: Value): Value
  {
    if v == Undefined then Null else v
  }

  /** A nested comment literal; `owner` / `ownerType` are `Undefined` when
      the literal leaves them out. */
  function Comment(id: int, body: string, owner: Value, ownerType: Value): Value
  {
    Obj(Given(Given(map["id" := Num(id), "body" := Str(body)], "commentable_id", owner), "commentable_type", ownerType))
  }

  function Post(id: int, comments: seq<Value>): Value
  {
    Obj(map["id" := Num(id), "comments" := Arr(comments)])
  }

  /** A comment as stored: `$id`, its fields, and the two morph fields. */
  function CommentRow(id: int, body: string, owner: Value, ownerType: Value): Row
  {
    map["commentable_type" := ownerType, "commentable_id" := owner, "body" := Str(body), "id" := Num(id), "$id" := Num(id)]
  }

  function PostRow(id: int, comments: seq<Value>): Row
  {
    map["$id" := Num(id), "id" := Num(id), "comments" := Arr(comments)]
  }

  /** The flat row of any raw comment: each declared field as given, or
      its default. */
  lemma CommentFlatFields(schema: Schema, raw: map<string, Value>, id: Value)
    requires "comments" in schema && schema["comments"] == CommentFields
    ensures FlatRow(schema, "comments", raw, id) ==
      map["commentable_type" := OrNull(Field(raw, "commentable_type")),
          "commentable_id" := OrNull(Field(raw, "commentable_id")),
          "body" := if Field(raw, "body") == Undefined then Str("") else Field(raw, "body"),
          "id" := OrNull(Field(raw, "id")),
          "$id" := id]
  {
    var fields := CommentFields;
    var ct := OrNull(Field(raw, "commentable_type"));
    var ci := OrNull(Field(raw, "commentable_id"));
    var body := if Field(raw, "body") == Undefined then Str("") else Field(raw, "body");
    assert fields[3..][1..] == [];
    assert FlatFields(fields[3..], raw) == map[]["commentable_type" := ct];
    assert fields[2..][1..] == fields[3..];
    assert FlatFields(fields[2..], raw) == map[]["commentable_type" := ct]["commentable_id" := ci];
    assert fields[1..][1..] == fields[2..];
    assert FlatFields(fields[1..], raw) == map[]["commentable_type" := ct]["commentable_id" := ci]["body" := body];
    assert FlatFields(fields, raw) ==
      map[]["commentable_type" := ct]["commentable_id" := ci]["body" := body]["id" := OrNull(Field(raw, "id"))];
  }

  lemma CommentLiteral(id: int, body: string, owner: Value, ownerType: Value)
    ensures var raw := Comment(id, body, owner, ownerType).fields;
      && Field(raw, "id") == Num(id) && Field(raw, "body") == Str(body)
      && Field(raw, "commentable_id") == owner && Field(raw, "commentable_type") == ownerType
  {
  }

  /** A comment's flat row: what was given, `null` for what was not. */
  lemma CommentFlatRow(schema: Schema, id: int, body: string, owner: Value, ownerType: Value)
    requires "comments" in schema && schema["comments"] == CommentFields
    ensures ChildKey(Comment(id, body, owner, ownerType)) == Num(id)
    ensures FlatRow(schema, "comments", Comment(id, body, owner, ownerType).fields, Num(id)) ==
      CommentRow(id, body, OrNull(owner), OrNull(ownerType))
  {
    CommentLiteral(id, body, owner, ownerType);
    CommentFlatFields(schema, Comment(id, body, owner, ownerType).fields, Num(id));
  }

  /** The morph relation of a post fills exactly the morph fields that are
      `null`: the post's id and the type `"posts"`. */
  lemma CommentAttached(parent: string, p: int, id: int, body: string, owner: Value, ownerType: Value)
    requires owner != Undefined && ownerType != Undefined
    ensures AttachRow(Comments, parent, Num(p), CommentRow(id, body, owner, ownerType)) ==
      CommentRow(id, body, if owner == Null then Num(p) else owner, if ownerType == Null then Str(parent) else ownerType)
  {
  }

  lemma PostFlatRow(schema: Schema, id: int, comments: seq<Value>)
    requires "posts" in schema && schema["posts"] == PostFields
    ensures FlatRow(schema, "posts", Post(id, comments).fields, Num(id)) == PostRow(id, ChildKeys(comments))
  {
    var raw := Post(id, comments).fields;
    assert FlatFields(PostFields[1..], raw) == map["comments" := Arr(ChildKeys(comments))];
  }

  /** The rows two comments of post `p` end up as. */
  lemma TwoCommentRows(schema: Schema, p: int, a: int, aBody: string, aOwner: Value, aType: Value,
                       b: int, bBody: string, bOwner: Value, bType: Value)
    requires "comments" in schema && schema["comments"] == CommentFields
    ensures var items := [Comment(a, aBody, aOwner, aType), Comment(b, bBody, bOwner, bType)];
      && ChildKeys(items) == [Num(a), Num(b)]
      && AttachedRows(Comments, "posts", Num(p), FlatRows(schema, "comments", items)) ==
         [CommentRow(a, aBody, if OrNull(aOwner) == Null then Num(p) else aOwner,
                               if OrNull(aType) == Null then Str("posts") else aType),
          CommentRow(b, bBody, if OrNull(bOwner) == Null then Num(p) else bOwner,
                               if OrNull(bType) == Null then Str("posts") else bType)]
  {
    TwoFlatComments(schema, a, aBody, aOwner, aType, b, bBody, bOwner, bType);
    TwoAttachedComments(p, a, aBody, OrNull(aOwner), OrNull(aType), b, bBody, OrNull(bOwner), OrNull(bType));
  }

  /** The keys and flat rows of two comments. */
  lemma TwoFlatComments(schema: Schema, a: int, aBody: string, aOwner: Value, aType: Value,
                        b: int, bBody: string, bOwner: Value, bType: Value)
    requires "comments" in schema && schema["comments"] == CommentFields
    ensures var items := [Comment(a, aBody, aOwner, aType), Comment(b, bBody, bOwner, bType)];
      && ChildKeys(items) == [Num(a), Num(b)]
      && FlatRows(schema, "comments", items) ==
         [CommentRow(a, aBody, OrNull(aOwner), OrNull(aType)), CommentRow(b, bBody, OrNull(bOwner), OrNull(bType))]
  {
    CommentFlatRow(schema, a, aBody, aOwner, aType);
    CommentFlatRow(schema, b, bBody, bOwner, bType);
  }

  /** Two comment rows with post `p` attached. */
  lemma TwoAttachedComments(p: int, a: int, aBody: string, aOwner: Value, aType: Value,
                            b: int, bBody: string, bOwner: Value, bType: Value)
    requires aOwner != Undefined && aType != Undefined && bOwner != Undefined && bType != Undefined
    ensures AttachedRows(Comments, "posts", Num(p), [CommentRow(a, aBody, aOwner, aType), CommentRow(b, bBody, bOwner, bType)]) ==
      [CommentRow(a, aBody, if aOwner == Null then Num(p) else aOwner, if aType == Null then Str("posts") else aType),
       CommentRow(b, bBody, if bOwner == Null then Num(p) else bOwner, if bType == Null then Str("posts") else bType)]
  {
    CommentAttached("posts", p, a, aBody, aOwner, aType);
    CommentAttached("posts", p, b, bBody, bOwner, bType);
  }

  /** A post whose id is new, with comments whose ids are distinct and
      new: the comments are appended with the post's morph keys filled
      where missing, then the post's row is appended. */
  lemma {:induction false} PostCreated(schema: Schema, p: int, items: seq<Value>, store: Store)
    requires "posts" in schema && schema["posts"] == PostFields
    requires "comments" in schema && schema["comments"] == CommentFields
    requires "comments" in store && "posts" in store
    requires forall j :: 0 <= j < |items| ==> items[j].Obj? && !Missing(items[j].fields, PrimaryKey)
    requires forall j, l :: 0 <= j < l < |items| ==> ChildKey(items[j]) != ChildKey(items[l])
    requires forall j, t :: 0 <= j < |items| && 0 <= t < |store["comments"]| ==>
      KeyOf(store["comments"][t]) != ChildKey(items[j])
    requires forall t :: 0 <= t < |store["posts"]| ==> KeyOf(store["posts"][t]) != Num(p)
    ensures NormalizeRecord(schema, "posts", Post(p, items), store) ==
      Ok((Num(p), store["comments" := store["comments"] + AttachedRows(Comments, "posts", Num(p), FlatRows(schema, "comments", items))]
                       ["posts" := store["posts"] + [PostRow(p, ChildKeys(items))]]))
  {
    var v := Post(p, items);
    assert Field(v.fields, schema["posts"][1].name) == Arr(items);
    assert TableOf(store, "posts") == store["posts"];
    NestedLeaves(schema, "posts", v, 1, store);
    PostFlatRow(schema, p, items);
  }

  /** What a comment of post `p` is stored as: `null` morph fields take
      the post's id and the type `"posts"`. */
  function Attached(p: int, id: int, body: string, owner: Value, ownerType: Value): Row
  {
    CommentRow(id, body, if OrNull(owner) == Null then Num(p) else owner,
                         if OrNull(ownerType) == Null then Str("posts") else ownerType)
  }

  /** Two comments with distinct ids meet the conditions for being
      created fresh into an empty table. */
  lemma TwoFreshComments(items: seq<Value>, a: int, aBody: string, aOwner: Value, aType: Value,
                         b: int, bBody: string, bOwner: Value, bType: Value)
    requires items == [Comment(a, aBody, aOwner, aType), Comment(b, bBody, bOwner, bType)]
    requires a != b
    ensures forall j :: 0 <= j < |items| ==> items[j].Obj? && !Missing(items[j].fields, PrimaryKey)
    ensures forall j, l :: 0 <= j < l < |items| ==> ChildKey(items[j]) != ChildKey(items[l])
  {
    CommentLiteral(a, aBody, aOwner, aType);
    CommentLiteral(b, bBody, bOwner, bType);
  }

  /** One post with two new comments, normalised into empty posts and
      comments tables. */
  lemma {:induction false} OnePostTwoComments(schema: Schema, store: Store, p: int, items: seq<Value>,
                                              a: int, aBody: string, aOwner: Value, aType: Value,
                                              b: int, bBody: string, bOwner: Value, bType: Value)
    requires "posts" in schema && schema["posts"] == PostFields
    requires "comments" in schema && schema["comments"] == CommentFields
    requires "comments" in store && "posts" in store && store["comments"] == [] && store["posts"] == []
    requires items == [Comment(a, aBody, aOwner, aType), Comment(b, bBody, bOwner, bType)]
    requires a != b
    ensures NormalizeRecord(schema, "posts", Post(p, items), store) ==
      Ok((Num(p), store["comments" := [Attached(p, a, aBody, aOwner, aType), Attached(p, b, bBody, bOwner, bType)]]
                       ["posts" := [PostRow(p, [Num(a), Num(b)])]]))
  {
    TwoFreshComments(items, a, aBody, aOwner, aType, b, bBody, bOwner, bType);
    PostCreated(schema, p, items, store);
    TwoCommentRows(schema, p, a, aBody, aOwner, aType, b, bBody, bOwner, bType);
    var rows := [Attached(p, a, aBody, aOwner, aType), Attached(p, b, bBody, bOwner, bType)];
    assert AttachedRows(Comments, "posts", Num(p), FlatRows(schema, "comments", items)) == rows;
    assert store["comments"] + rows == rows;
    assert ChildKeys(items) == [Num(a), Num(b)];
    assert store["posts"] + [PostRow(p, [Num(a), Num(b)])] == [PostRow(p, [Num(a), Num(b)])];
  }

  /** One post with two comments, created from empty tables. */
  lemma {:induction false} CreatePostTwoComments(p: int, a: int, aBody: string, aOwner: Value, aType: Value,
                                                 b: int, bBody: string, bOwner: Value, bType: Value)
    requires a != b
    ensures Create(Entities, "posts", Post(p, [Comment(a, aBody, aOwner, aType), Comment(b, bBody, bOwner, bType)]), Empty) ==
      Ok(map["posts" := [PostRow(p, [Num(a), Num(b)])], "videos" := [],
             "comments" := [Attached(p, a, aBody, aOwner, aType), Attached(p, b, bBody, bOwner, bType)]])
  {
    var items := [Comment(a, aBody, aOwner, aType), Comment(b, bBody, bOwner, bType)];
    OnePostTwoComments(Entities, Empty, p, items, a, aBody, aOwner, aType, b, bBody, bOwner, bType);
    EmptyUpdated([Attached(p, a, aBody, aOwner, aType), Attached(p, b, bBody, bOwner, bType)], [PostRow(p, [Num(a), Num(b)])]);
  }

  lemma EmptyUpdated(comments: Table, posts: Table)
    ensures Empty["comments" := comments]["posts" := posts] == map["posts" := posts, "videos" := [], "comments" := comments]
  {
  }

  /** Comments that already carry both morph fields keep them. */
  lemma CreatesMorphManyData()
    ensures Create(Entities, "posts",
      Post(1, [Comment(2, "comment1", Num(1), Str("posts")), Comment(3, "comment2", Num(1), Str("posts"))]), Empty) ==
      Ok(map["posts" := [PostRow(1, [Num(2), Num(3)])], "videos" := [],
             "comments" := [CommentRow(2, "comment1", Num(1), Str("posts")), CommentRow(3, "comment2", Num(1), Str("posts"))]])
  {
    CreatePostTwoComments(1, 2, "comment1", Num(1), Str("posts"), 3, "comment2", Num(1), Str("posts"));
  }

  /** Comments without morph fields get the post's id and the type
      `"posts"`. */
  lemma GeneratesMorphKeys()
    ensures Create(Entities, "posts",
      Post(1, [Comment(2, "comment1", Undefined, Undefined), Comment(3, "comment2", Undefined, Undefined)]), Empty) ==
      Ok(map["posts" := [PostRow(1, [Num(2), Num(3)])], "videos" := [],
             "comments" := [CommentRow(2, "comment1", Num(1), Str("posts")), CommentRow(3, "comment2", Num(1), Str("posts"))]])
  {
    CreatePostTwoComments(1, 2, "comment1", Undefined, Undefined, 3, "comment2", Undefined, Undefined);
  }

  /** Only the missing morph field is generated: a given
      `commentable_id`, even one naming another post, is kept. */
  lemma GeneratesOnlyMissingMorphKeys()
    ensures Create(Entities, "posts",
      Post(1, [Comment(2, "comment1", Num(1), Undefined), Comment(3, "comment2", Num(2), Undefined)]), Empty) ==
      Ok(map["posts" := [PostRow(1, [Num(2), Num(3)])], "videos" := [],
             "comments" := [CommentRow(2, "comment1", Num(1), Str("posts")), CommentRow(3, "comment2", Num(2), Str("posts"))]])
  {
    CreatePostTwoComments(1, 2, "comment1", Num(1), Undefined, 3, "comment2", Num(2), Undefined);
  }

  /** A post with one new comment, created after other rows. */
  lemma {:induction false} OnePostOneComment(schema: Schema, store: Store, p: int, items: seq<Value>,
                                             c: int, body: string, owner: Value, ownerType: Value)
    requires "posts" in schema && schema["posts"] == PostFields
    requires "comments" in schema && schema["comments"] == CommentFields
    requires "comments" in store && "posts" in store
    requires items == [Comment(c, body, owner, ownerType)]
    requires forall t :: 0 <= t < |store["comments"]| ==> KeyOf(store["comments"][t]) != Num(c)
    requires forall t :: 0 <= t < |store["posts"]| ==> KeyOf(store["posts"][t]) != Num(p)
    ensures NormalizeRecord(schema, "posts", Post(p, items), store) ==
      Ok((Num(p), store["comments" := store["comments"] + [Attached(p, c, body, owner, ownerType)]]
                       ["posts" := store["posts"] + [PostRow(p, [Num(c)])]]))
  {
    CommentLiteral(c, body, owner, ownerType);
    CommentFlatRow(schema, c, body, owner, ownerType);
    PostCreated(schema, p, items, store);
    CommentAttached("posts", p, c, body, OrNull(owner), OrNull(ownerType));
    assert AttachedRows(Comments, "posts", Num(p), FlatRows(schema, "comments", items)) == [Attached(p, c, body, owner, ownerType)];
    assert ChildKeys(items) == [Num(c)];
  }

  /** The store after the first post of the two-post scenario. */
  lemma FirstPostStore(s1: Store)
    requires s1 == Empty["comments" := [CommentRow(2, "comment1", Num(1), Str("posts")), CommentRow(3, "comment2", Num(1), Str("posts"))]]
                        ["posts" := [PostRow(1, [Num(2), Num(3)])]]
    ensures "comments" in s1 && "posts" in s1
    ensures forall t :: 0 <= t < |s1["comments"]| ==> KeyOf(s1["comments"][t]) != Num(4)
    ensures forall t :: 0 <= t < |s1["posts"]| ==> KeyOf(s1["posts"][t]) != Num(2)
    ensures s1["comments" := s1["comments"] + [CommentRow(4, "comment3", Num(2), Str("posts"))]]
              ["posts" := s1["posts"] + [PostRow(2, [Num(4)])]] ==
      map["posts" := [PostRow(1, [Num(2), Num(3)]), PostRow(2, [Num(4)])], "videos" := [],
          "comments" := [CommentRow(2, "comment1", Num(1), Str("posts")), CommentRow(3, "comment2", Num(1), Str("posts")),
                         CommentRow(4, "comment3", Num(2), Str("posts"))]]
  {
    assert KeyOf(CommentRow(2, "comment1", Num(1), Str("posts"))) == Num(2);
    assert KeyOf(CommentRow(3, "comment2", Num(1), Str("posts"))) == Num(3);
    assert KeyOf(PostRow(1, [Num(2), Num(3)])) == Num(1);
    assert s1["comments"] + [CommentRow(4, "comment3", Num(2), Str("posts"))] ==
      [CommentRow(2, "comment1", Num(1), Str("posts")), CommentRow(3, "comment2", Num(1), Str("posts")),
       CommentRow(4, "comment3", Num(2), Str("posts"))];
    assert s1["posts"] + [PostRow(2, [Num(4)])] == [PostRow(1, [Num(2), Num(3)]), PostRow(2, [Num(4)])];
  }

  /** An array of posts is created post by post. */
  lemma CreatesManyMorphManyData()
    ensures Create(Entities, "posts", Arr([
        Post(1, [Comment(2, "comment1", Num(1), Str("posts")), Comment(3, "comment2", Num(1), Str("posts"))]),
        Post(2, [Comment(4, "comment3", Num(2), Str("posts"))])]), Empty) ==
      Ok(map["posts" := [PostRow(1, [Num(2), Num(3)]), PostRow(2, [Num(4)])], "videos" := [],
             "comments" := [CommentRow(2, "comment1", Num(1), Str("posts")), CommentRow(3, "comment2", Num(1), Str("posts")),
                            CommentRow(4, "comment3", Num(2), Str("posts"))]])
  {
    var items1 := [Comment(2, "comment1", Num(1), Str("posts")), Comment(3, "comment2", Num(1), Str("posts"))];
    var items2 := [Comment(4, "comment3", Num(2), Str("posts"))];
    var data := [Post(1, items1), Post(2, items2)];
    var s1 := Empty["comments" := [CommentRow(2, "comment1", Num(1), Str("posts")), CommentRow(3, "comment2", Num(1), Str("posts"))]]
                   ["posts" := [PostRow(1, [Num(2), Num(3)])]];
    OnePostTwoComments(Entities, Empty, 1, items1, 2, "comment1", Num(1), Str("posts"), 3, "comment2", Num(1), Str("posts"));
    FirstPostStore(s1);
    OnePostOneComment(Entities, s1, 2, items2, 4, "comment3", Num(2), Str("posts"));
    var s2 := s1["comments" := s1["comments"] + [CommentRow(4, "comment3", Num(2), Str("posts"))]]
                ["posts" := s1["posts"] + [PostRow(2, [Num(4)])]];
    CreateAllCons(Entities, "posts", data, Empty, Num(1), s1);
    CreateAllCons(Entities, "posts", data[1..], s1, Num(2), s2);
    assert data[1..][1..] == [];
    CreateAllNil(Entities, "posts", s2);
  }

  /** Comments created directly, not nested under an owner, keep the
      `null` defaults of their morph fields. */
  lemma NoMorphKeysWithoutParent()
    ensures Create(Entities, "comments",
      Arr([Comment(2, "comment1", Undefined, Undefined), Comment(3, "comment2", Undefined, Undefined)]), Empty) ==
      Ok(map["posts" := [], "videos" := [],
             "comments" := [CommentRow(2, "comment1", Null, Null), CommentRow(3, "comment2", Null, Null)]])
  {
    var items := [Comment(2, "comment1", Undefined, Undefined), Comment(3, "comment2", Undefined, Undefined)];
    TwoFreshComments(items, 2, "comment1", Undefined, Undefined, 3, "comment2", Undefined, Undefined);
    LeafRoots(Entities, "comments", items, Empty);
    TwoCommentFlatRows(Entities, items, 2, "comment1", 3, "comment2");
    EmptyAppended(FlatRows(Entities, "comments", items));
  }

  lemma EmptyAppended(comments: Table)
    ensures Empty["comments" := Empty["comments"] + comments] == map["posts" := [], "videos" := [], "comments" := comments]
  {
    assert Empty["comments"] + comments == comments;
  }

  /** A post naming an already stored comment by its bare key: the key is
      listed in the post's row, but the comment is not part of this
      call's normalised data, so its morph fields stay `null`. */
  lemma BareKeyAttachesNothing()
    ensures var store := Empty["comments" := [CommentRow(7, "x", Null, Null)]];
      Create(Entities, "posts", Post(1, [Num(7)]), store) == Ok(store["posts" := [PostRow(1, [Num(7)])]])
  {
    var store := Empty["comments" := [CommentRow(7, "x", Null, Null)]];
    var v := Post(1, [Num(7)]);
    var list := Arr([Num(7)]);
    assert Field(v.fields, "comments") == list;
    ListNil(Entities, "comments", list, store);
    ListBare(Entities, "comments", list, 0, store, [], store);
    assert [Num(7)] + [] == [Num(7)];
    assert RecordKeys(list.items) == [];
    OneRelationRecord(Entities, "posts", v, 1, store, [Num(7)], store);
    AttachNoKeys(Comments, "posts", Num(1), v.fields, store);
    PostFlatRow(Entities, 1, [Num(7)]);
    assert ChildKeys([Num(7)]) == [Num(7)];
    PutFresh(store, "posts", PostRow(1, [Num(7)]));
    assert TableOf(store, "posts") + [PostRow(1, [Num(7)])] == [PostRow(1, [Num(7)])];
  }

  lemma TwoCommentFlatRows(schema: Schema, items: seq<Value>, a: int, aBody: string, b: int, bBody: string)
    requires "comments" in schema && schema["comments"] == CommentFields
    requires items == [Comment(a, aBody, Undefined, Undefined), Comment(b, bBody, Undefined, Undefined)]
    ensures FlatRows(schema, "comments", items) == [CommentRow(a, aBody, Null, Null), CommentRow(b, bBody, Null, Null)]
  {
    CommentFlatRow(schema, a, aBody, Undefined, Undefined);
    CommentFlatRow(schema, b, bBody, Undefined, Undefined);
  }

  /** The deep scenario: users have many posts by `user_id`, and posts
      (which here also declare `user_id`) morph-many comments. */
  const Posts: Kind := HasMany("posts", "user_id")

  const UserFields: seq<FieldDef> := [FieldDef("id", Attr(Str("null"))), FieldDef("posts", Posts)]

  const AuthoredPostFields: seq<FieldDef> :=
    [FieldDef("id", Attr(Null)), FieldDef("user_id", Attr(Null)), FieldDef("comments", Comments)]

  const DeepEntities: Schema :=
    map["users" := UserFields, "posts" := AuthoredPostFields, "videos" := PostFields, "comments" := CommentFields]

  const DeepEmpty: Store := map["users" := [], "posts" := [], "videos" := [], "comments" := []]

  function User(id: int, posts: seq<Value>): Value
  {
    Obj(map["id" := Num(id), "posts" := Arr(posts)])
  }

  function AuthoredPost(id: int, user: int, comments: seq<Value>): Value
  {
    Obj(map["id" := Num(id), "user_id" := Num(user), "comments" := Arr(comments)])
  }

  function UserRow(id: int, posts: seq<Value>): Row
  {
    map["posts" := Arr(posts), "id" := Num(id), "$id" := Num(id)]
  }

  function AuthoredPostRow(id: int, user: int, comments: seq<Value>): Row
  {
    map["comments" := Arr(comments), "user_id" := Num(user), "id" := Num(id), "$id" := Num(id)]
  }

  lemma AuthoredPostFlatRow(schema: Schema, id: int, user: int, comments: seq<Value>)
    requires "posts" in schema && schema["posts"] == AuthoredPostFields
    ensures FlatRow(schema, "posts", AuthoredPost(id, user, comments).fields, Num(id)) ==
      AuthoredPostRow(id, user, ChildKeys(comments))
  {
    var fields := AuthoredPostFields;
    var raw := AuthoredPost(id, user, comments).fields;
    assert fields[2..][1..] == [];
    assert FlatFields(fields[2..], raw) == map[]["comments" := Arr(ChildKeys(comments))];
    assert fields[1..][1..] == fields[2..];
    assert FlatFields(fields[1..], raw) == map[]["comments" := Arr(ChildKeys(comments))]["user_id" := Num(user)];
  }

  lemma UserFlatRow(schema: Schema, id: int, posts: seq<Value>)
    requires "users" in schema && schema["users"] == UserFields
    ensures FlatRow(schema, "users", User(id, posts).fields, Num(id)) == UserRow(id, ChildKeys(posts))
  {
    var fields := UserFields;
    var raw := User(id, posts).fields;
    assert fields[1..][1..] == [];
    assert FlatFields(fields[1..], raw) == map[]["posts" := Arr(ChildKeys(posts))];
  }

  /** A post that names its author, with two new comments, created into
      empty posts and comments tables. */
  lemma {:induction false} AuthoredPostCreated(schema: Schema, store: Store, p: int, user: int, items: seq<Value>,
                                               a: int, aBody: string, aOwner: Value, aType: Value,
                                               b: int, bBody: string, bOwner: Value, bType: Value)
    requires "posts" in schema && schema["posts"] == AuthoredPostFields
    requires "comments" in schema && schema["comments"] == CommentFields
    requires "comments" in store && "posts" in store && store["comments"] == [] && store["posts"] == []
    requires items == [Comment(a, aBody, aOwner, aType), Comment(b, bBody, bOwner, bType)]
    requires a != b
    ensures NormalizeRecord(schema, "posts", AuthoredPost(p, user, items), store) ==
      Ok((Num(p), store["comments" := [Attached(p, a, aBody, aOwner, aType), Attached(p, b, bBody, bOwner, bType)]]
                       ["posts" := [AuthoredPostRow(p, user, [Num(a), Num(b)])]]))
  {
    var v := AuthoredPost(p, user, items);
    TwoFreshComments(items, a, aBody, aOwner, aType, b, bBody, bOwner, bType);
    assert Field(v.fields, schema["posts"][2].name) == Arr(items);
    assert TableOf(store, "posts") == store["posts"];
    NestedLeaves(schema, "posts", v, 2, store);
    AuthoredPostFlatRow(schema, p, user, items);
    TwoCommentRows(schema, p, a, aBody, aOwner, aType, b, bBody, bOwner, bType);
    var rows := [Attached(p, a, aBody, aOwner, aType), Attached(p, b, bBody, bOwner, bType)];
    assert AttachedRows(Comments, "posts", Num(p), FlatRows(schema, "comments", items)) == rows;
    assert store["comments"] + rows == rows;
    assert ChildKeys(items) == [Num(a), Num(b)];
    assert store["posts"] + [AuthoredPostRow(p, user, [Num(a), Num(b)])] == [AuthoredPostRow(p, user, [Num(a), Num(b)])];
  }

  /** Attaching a user's own key to their post changes nothing. */
  lemma AuthorKept(p: int, user: int, comments: seq<Value>)
    ensures AttachRow(Posts, "users", Num(user), AuthoredPostRow(p, user, comments)) == AuthoredPostRow(p, user, comments)
  {
  }

  /** A one-element list normalises as its element. */
  lemma SingletonList(schema: Schema, entity: string, list: Value, store: Store, s1: Store)
    requires list.Arr? && |list.items| == 1 && list.items[0].Obj?
    requires NormalizeRecord(schema, entity, list.items[0], store) == Ok((ChildKey(list.items[0]), s1))
    ensures NormalizeList(schema, entity, list, 0, store) == Ok((ChildKeys(list.items), s1))
  {
    ListNil(schema, entity, list, s1);
    ListCons(schema, entity, list, 0, store, ChildKey(list.items[0]), s1, [], s1);
    assert [ChildKey(list.items[0])] + [] == ChildKeys(list.items);
  }

  /** Attaching the user's key to a post row that already names it
      changes nothing. */
  lemma AuthorAttached(u: int, record: Row, keys: seq<Value>, s1: Store, postRow: Row)
    requires "posts" in s1 && s1["posts"] == [postRow] && KeyOf(postRow) in keys
    requires AttachRow(Posts, "users", Num(u), postRow) == postRow
    ensures Attach(Posts, "users", Num(u), record, keys, s1) == s1
  {
    assert s1["posts"] == [] + [postRow];
    AttachFresh(Posts, "users", Num(u), record, keys, s1, [], [postRow]);
    assert AttachedRows(Posts, "users", Num(u), [postRow]) == [postRow];
    assert s1["posts" := [] + [postRow]] == s1;
  }

  /** A user with one such post: the post (and its comments) first, then
      the user's row listing the post. */
  lemma {:induction false} UserWithPost(schema: Schema, store: Store, u: int, posts: seq<Value>, s1: Store, postRow: Row)
    requires "users" in schema && schema["users"] == UserFields
    requires |posts| == 1 && posts[0].Obj?
    requires NormalizeRecord(schema, "posts", posts[0], store) == Ok((ChildKey(posts[0]), s1))
    requires "posts" in s1 && s1["posts"] == [postRow] && KeyOf(postRow) == ChildKey(posts[0])
    requires "users" in s1 && s1["users"] == []
    requires AttachRow(Posts, "users", Num(u), postRow) == postRow
    ensures NormalizeRecord(schema, "users", User(u, posts), store) ==
      Ok((Num(u), s1["users" := [UserRow(u, ChildKeys(posts))]]))
  {
    var v := User(u, posts);
    var keys := ChildKeys(posts);
    assert Field(v.fields, schema["users"][1].name) == Arr(posts);
    SingletonList(schema, "posts", Arr(posts), store, s1);
    OneRelationRecord(schema, "users", v, 1, store, keys, s1);
    AuthorAttached(u, v.fields, keys, s1, postRow);
    UserFlatRow(schema, u, posts);
    PutFresh(s1, "users", UserRow(u, keys));
    assert TableOf(s1, "users") + [UserRow(u, keys)] == [UserRow(u, keys)];
  }

  lemma DeepStore(comments: Table, post: Row, user: Row)
    ensures DeepEmpty["comments" := comments]["posts" := [post]]["users" := [user]] ==
      map["users" := [user], "posts" := [post], "videos" := [], "comments" := comments]
  {
  }

  /** Morph keys are generated for comments nested two levels deep, with
      the post as their owner; the given `commentable_id` values are kept
      and the author's `user_id` on the post is left as given. */
  lemma GeneratesDeepMorphKeys()
    ensures Create(DeepEntities, "users",
      User(1, [AuthoredPost(5, 1, [Comment(2, "comment1", Num(1), Undefined), Comment(3, "comment2", Num(2), Undefined)])]),
      DeepEmpty) ==
      Ok(map["users" := [UserRow(1, [Num(5)])], "posts" := [AuthoredPostRow(5, 1, [Num(2), Num(3)])], "videos" := [],
             "comments" := [CommentRow(2, "comment1", Num(1), Str("posts")), CommentRow(3, "comment2", Num(2), Str("posts"))]])
  {
    var items := [Comment(2, "comment1", Num(1), Undefined), Comment(3, "comment2", Num(2), Undefined)];
    var post := AuthoredPost(5, 1, items);
    var postRow := AuthoredPostRow(5, 1, [Num(2), Num(3)]);
    var rows := [CommentRow(2, "comment1", Num(1), Str("posts")), CommentRow(3, "comment2", Num(2), Str("posts"))];
    AuthoredPostCreated(DeepEntities, DeepEmpty, 5, 1, items, 2, "comment1", Num(1), Undefined, 3, "comment2", Num(2), Undefined);
    assert [Attached(5, 2, "comment1", Num(1), Undefined), Attached(5, 3, "comment2", Num(2), Undefined)] == rows;
    var s1 := DeepEmpty["comments" := rows]["posts" := [postRow]];
    AuthorKept(5, 1, [Num(2), Num(3)]);
    assert ChildKey(post) == Num(5);
    UserWithPost(DeepEntities, DeepEmpty, 1, [post], s1, postRow);
    assert ChildKeys([post]) == [Num(5)];
    DeepStore(rows, postRow, UserRow(1, [Num(5)]));
  }
}

=== FILE: normalizer.dfy ===
/** Normalisation: a nested record is decomposed depth first into flat rows,
    children before their parent. Each relation's children are normalised
    into the related table, get their keys attached, and the parent row
    keeps the ordered list of child keys. */
module Normalizer {
  import opened Values
  import opened Schema
  import opened Tables
  import HasManyThrough
  import Seqs

  /** The key a nested element contributes to its parent's list: a
      record's id, or a bare value, which is itself a key reference. */
  function ChildKey(v: Value): Value
  {
    if v.Obj? then Field(v.fields, PrimaryKey) else v
  }

  function ChildKeys(items: seq<Value>): (keys: seq<Value>)
    ensures |keys| == |items|
    ensures forall i :: 0 <= i < |items| ==> keys[i] == ChildKey(items[i])
  {
    Seqs.Map(items, ChildKey)
  }

  /** The keys of a suffix: its first element's, then the rest's. */
  lemma ChildKeysCons(items: seq<Value>, i: nat)
    requires i < |items|
    ensures ChildKeys(items[i..]) == [ChildKey(items[i])] + ChildKeys(items[i + 1..])
  {
    var a := ChildKeys(items[i..]);
    var b := [ChildKey(items[i])] + ChildKeys(items[i + 1..]);
    forall k | 0 <= k < |a| ensures a[k] == b[k] {
      if k > 0 {
        assert items[i..][k] == items[i + 1..][k - 1];
      }
    }
  }

  /** The keys of the elements that are records, in order: the children
      that have a row in this call's normalised data, the only ones a
      relation attaches its keys to. A bare key reference has none. */
  function RecordKeys(items: seq<Value>): (keys: seq<Value>)
    ensures |keys| <= |items|
    ensures (forall j :: 0 <= j < |items| ==> items[j].Obj?) ==> keys == ChildKeys(items)
  {
    if |items| == 0 then []
    else
      var rest := RecordKeys(items[1..]);
      assert forall j :: 1 <= j < |items| ==> items[j] == items[1..][j - 1];
      if items[0].Obj? then
        assert (forall j :: 0 <= j < |items| ==> items[j].Obj?) ==> [ChildKey(items[0])] + rest == ChildKeys(items);
        [ChildKey(items[0])] + rest
      else rest
  }

  /** A key is attached to exactly when some element given as a record
      carries it. */
  lemma {:induction false} RecordKeysMembers(items: seq<Value>)
    ensures forall k :: k in RecordKeys(items) <==> exists j :: 0 <= j < |items| && items[j].Obj? && ChildKey(items[j]) == k
  {
    if |items| > 0 {
      RecordKeysMembers(items[1..]);
      assert forall j :: 1 <= j < |items| ==> items[j] == items[1..][j - 1];
      assert forall j :: 0 <= j < |items[1..]| ==> items[1..][j] == items[j + 1];
    }
  }

  /** What `fill` leaves in one declared field of the flat row: an
      attribute keeps its value, or its default when the value is
      `undefined`; a relation keeps the child keys when given an array and
      `[]` otherwise. */
  function FillField(kind: Kind, raw: Value): (v: Value)
    ensures kind.Attr? && raw != Undefined ==> v == raw
    ensures kind.Attr? && raw == Undefined ==> v == kind.default
    ensures kind.IsRelation() && raw.Arr? ==> v == Arr(ChildKeys(raw.items))
    ensures kind.IsRelation() && !raw.Arr? ==> v == Arr([])
  {
    match kind
    case Attr(d) => if raw == Undefined then d else raw
    case _ => HasManyThrough.Fill(if raw.Arr? then Arr(ChildKeys(raw.items)) else raw)
  }

  /** The flat row of a raw record: exactly the declared fields, each
      filled. */
  function FlatFields(fields: seq<FieldDef>, raw: map<string, Value>): (row: Row)
    ensures forall i :: 0 <= i < |fields| ==> fields[i].name in row
  {
    if |fields| == 0 then map[]
    else FlatFields(fields[1..], raw)[fields[0].name := FillField(fields[0].kind, Field(raw, fields[0].name))]
  }

  /** The flat row of a record of `entity` with primary key `id`. */
  function FlatRow(schema: Schema, entity: string, raw: map<string, Value>, id: Value): (row: Row)
    requires entity in schema
    ensures KeyOf(row) == id
  {
    FlatFields(schema[entity], raw)[IdKey := id]
  }

  /** Sets `f` only when it is missing. */
  function FillMissing(row: Row, f: string, v: Value): (r: Row)
    ensures Field(r, f) == (if Missing(row, f) then v else Field(row, f))
    ensures forall g :: g != f ==> Field(r, g) == Field(row, g)
    ensures r.Keys == row.Keys + {f} || r == row
  {
    if Missing(row, f) then row[f := v] else row
  }

  /** A relation's `attach` on one child row, given the parent's entity and
      key: has-many sets the foreign key to the parent's key; morph-many
      fills the foreign key and the type discriminator, each only where
      missing; has-many-through attaches nothing. */
  function AttachRow(kind: Kind, parent: string, id: Value, row: Row): (r: Row)
    requires kind.IsRelation()
    ensures kind.HasMany? ==> Field(r, kind.foreignKey) == id
    ensures kind.MorphMany? && kind.morphId != kind.morphType ==>
      && Field(r, kind.morphId) == (if Missing(row, kind.morphId) then id else Field(row, kind.morphId))
      && Field(r, kind.morphType) == (if Missing(row, kind.morphType) then Str(parent) else Field(row, kind.morphType))
    ensures kind.Through? ==> r == row
    ensures forall g :: g !in RelationFields(kind) ==> Field(r, g) == Field(row, g)
  {
    match kind
    case HasMany(_, fk) => row[fk := id]
    case MorphMany(_, mid, mty) => FillMissing(FillMissing(row, mid, id), mty, Str(parent))
    case Through(_) => row
  }

  /** The child fields a relation may write. */
  function RelationFields(kind: Kind): set<string>
    requires kind.IsRelation()
  {
    match kind
    case HasMany(_, fk) => {fk}
    case MorphMany(_, mid, mty) => {mid, mty}
    case Through(_) => {}
  }

  /** Filling a field of `row` beneath fields `e` overrides: the same as
      filling it in `row` alone, unless `e` supplies a different present
      value for a field `row` lacks. */
  lemma FillUnder(e: Row, row: Row, f: string, v: Value)
    requires v != Undefined && v != Null
    requires f !in row ==> Field(e, f) == v || Missing(e, f)
    ensures FillMissing(e + row, f, v) == e + FillMissing(row, f, v)
  {
  }

  /** Normalising a child again: its flat row is merged over the row the
      first `attach` produced, and attaching the same parent once more
      gives that row back. */
  lemma ReattachRow(kind: Kind, parent: string, id: Value, row: Row)
    requires kind.IsRelation() && id != Undefined && id != Null
    ensures AttachRow(kind, parent, id, AttachRow(kind, parent, id, row) + row) == AttachRow(kind, parent, id, row)
  {
    match kind
    case HasMany(_, fk) =>
      assert (row[fk := id] + row)[fk := id] == row[fk := id];
    case MorphMany(_, mid, mty) =>
      var x := FillMissing(row, mid, id);
      var y := FillMissing(x, mty, Str(parent));
      FillUnder(y, row, mid, id);
      FillUnder(y, x, mty, Str(parent));
      assert y + y == y;
    case Through(_) =>
      assert row + row == row;
  }

  /** `attach` for the children `keys` of one relation: every row of the
      related table whose `$id` is among `keys` gets its keys attached, and
      nothing else changes. */
  function Attach(kind: Kind, parent: string, id: Value, record: Row, keys: seq<Value>, store: Store): (r: Store)
    requires kind.IsRelation()
    ensures forall e :: e != kind.Related() ==> TableOf(r, e) == TableOf(store, e)
    ensures |TableOf(r, kind.Related())| == |TableOf(store, kind.Related())|
    ensures forall i :: 0 <= i < |TableOf(store, kind.Related())| ==>
      var row := TableOf(store, kind.Related())[i];
      TableOf(r, kind.Related())[i] == if KeyOf(row) in keys then AttachRow(kind, parent, id, row) else row
  {
    var rel := kind.Related();
    if kind.Through? then HasManyThrough.Attach(Arr(keys), record, store).1
    else if rel !in store then store
    else store[rel := Seqs.Map(store[rel], (row: Row) => if KeyOf(row) in keys then AttachRow(kind, parent, id, row) else row)]
  }

  /** Attaching keys never moves a row's `$id` in a well-formed schema. */
  lemma {:induction false} AttachKeepsKeys(kind: Kind, parent: string, id: Value, record: Row, keys: seq<Value>, store: Store)
    requires kind.IsRelation()
    ensures kind.SparesIdKey() ==>
      var r := Attach(kind, parent, id, record, keys, store);
      (forall e, k :: Find(TableOf(r, e), k) == Find(TableOf(store, e), k)) &&
      (KeyedStore(store) ==> KeyedStore(r))
  {
    if !kind.SparesIdKey() {
      return;
    }
    var r := Attach(kind, parent, id, record, keys, store);
    forall e, k ensures Find(TableOf(r, e), k) == Find(TableOf(store, e), k) {
      if e == kind.Related() {
        FindSameKeys(TableOf(r, e), TableOf(store, e), k);
      }
    }
    forall e | e in r && KeyedStore(store) ensures Keyed(r[e]) {
      assert TableOf(r, e) == r[e];
      if e == kind.Related() {
        assert forall i :: 0 <= i < |r[e]| ==> KeyOf(r[e][i]) == KeyOf(TableOf(store, e)[i]);
      }
    }
  }

  /** Two tables with the same keys row by row find keys at the same places. */
  lemma {:induction false} FindSameKeys(a: Table, b: Table, k: Value)
    requires |a| == |b|
    requires forall i :: 0 <= i < |a| ==> KeyOf(a[i]) == KeyOf(b[i])
    ensures Find(a, k) == Find(b, k)
  {
    if |a| > 0 {
      FindSameKeys(a[1..], b[1..], k);
    }
  }

  /** Creating a row in a store: merge it into its entity's table. */
  function Put(store: Store, entity: string, row: Row): (r: Store)
    ensures forall e :: e != entity ==> TableOf(r, e) == TableOf(store, e)
    ensures TableOf(r, entity) == Upsert(TableOf(store, entity), row)
    ensures KeyedStore(store) ==> KeyedStore(r)
  {
    store[entity := Upsert(TableOf(store, entity), row)]
  }

  /** After a put, the row's key addresses a row holding all of `row`, and
      every row addressable before still is. */
  lemma PutFacts(store: Store, entity: string, row: Row)
    ensures var r := Put(store, entity, row);
      && Lookup(TableOf(r, entity), KeyOf(row)).Some?
      && Extends(Lookup(TableOf(r, entity), KeyOf(row)).value, row)
      && Grows(store, r)
  {
    var r := Put(store, entity, row);
    var t := TableOf(store, entity);
    var found := Lookup(TableOf(r, entity), KeyOf(row));
    assert found == Some(if Lookup(t, KeyOf(row)).Some? then Lookup(t, KeyOf(row)).value + row else row);
    assert Extends(found.value, row);
    forall e, k | Lookup(TableOf(store, e), k).Some? ensures Lookup(TableOf(r, e), k).Some? {
      if e == entity && k != KeyOf(row) {
        assert Lookup(TableOf(r, e), k) == Lookup(t, k);
      }
    }
  }

  /** Every row addressable in `s` is still addressable in `s2`. */
  ghost predicate Grows(s: Store, s2: Store)
  {
    forall e, k :: Lookup(TableOf(s, e), k).Some? ==> Lookup(TableOf(s2, e), k).Some?
  }

  /** Only the tables of `entity` and of relation targets change. */
  ghost predicate Confined(schema: Schema, entity: string, s: Store, s2: Store)
  {
    forall e :: e != entity && e !in Targets(schema) ==> TableOf(s2, e) == TableOf(s, e)
  }

  /** Growing and confinement both compose along a chain of stores. */
  lemma Chain(schema: Schema, entity: string, a: Store, b: Store, c: Store)
    ensures Grows(a, b) && Grows(b, c) ==> Grows(a, c)
    ensures Confined(schema, entity, a, b) && Confined(schema, entity, b, c) ==> Confined(schema, entity, a, c)
  {
  }

  /** Normalise one record of `entity` into `store`; on success, its key
      and the updated store. The record's row holds its filled declared
      fields and `$id` equal to its id. */
  function NormalizeRecord(schema: Schema, entity: string, v: Value, store: Store): (r: Result<(Value, Store)>)
    ensures entity !in schema ==> r == Err(UnknownEntity(entity))
    ensures entity in schema && !v.Obj? ==> r == Err(MalformedInput)
    ensures entity in schema && v.Obj? && Missing(v.fields, PrimaryKey) ==> r == Err(MissingKey(entity))
    ensures r.Ok? ==> entity in schema && v.Obj? && r.value.0 == Field(v.fields, PrimaryKey)
    ensures r.Ok? ==>
      && Lookup(TableOf(r.value.1, entity), r.value.0).Some?
      && Extends(Lookup(TableOf(r.value.1, entity), r.value.0).value, FlatRow(schema, entity, v.fields, r.value.0))
    ensures r.Ok? ==> Confined(schema, entity, store, r.value.1)
    ensures r.Ok? && WellFormed(schema) ==> Grows(store, r.value.1)
    ensures r.Ok? && WellFormed(schema) && KeyedStore(store) ==> KeyedStore(r.value.1)
    decreases v, 2, 0
  {
    if entity !in schema then Err(UnknownEntity(entity))
    else if !v.Obj? then Err(MalformedInput)
    else if Missing(v.fields, PrimaryKey) then Err(MissingKey(entity))
    else
      var id := v.fields[PrimaryKey];
      var res :- NormalizeFields(schema, entity, id, v, 0, store);
      var row := res.0[IdKey := id];
      assert schema[entity][0..] == schema[entity];
      assert row == FlatRow(schema, entity, v.fields, id);
      assert KeyOf(row) == id;
      PutFacts(res.1, entity, row);
      Ok((id, Put(res.1, entity, row)))
  }

  /** Normalise the fields of `rec` from the `k`-th declaration on: each
      relation's children are normalised and attached in declaration
      order; the result's row is the record's flat row. A relation
      attaches its keys only to the children given as records. */
  function NormalizeFields(schema: Schema, entity: string, id: Value, rec: Value, k: nat, store: Store): (r: Result<(Row, Store)>)
    requires entity in schema && rec.Obj? && k <= |schema[entity]|
    ensures r.Ok? ==> r.value.0 == FlatFields(schema[entity][k..], rec.fields)
    ensures r.Ok? ==> forall e :: e !in Targets(schema) ==> TableOf(r.value.1, e) == TableOf(store, e)
    ensures r.Ok? && WellFormed(schema) ==> Grows(store, r.value.1)
    ensures r.Ok? && WellFormed(schema) && KeyedStore(store) ==> KeyedStore(r.value.1)
    decreases rec, 1, |schema[entity]| - k
  {
    if k == |schema[entity]| then Ok((map[], store))
    else
      var f := schema[entity][k];
      var raw := Field(rec.fields, f.name);
      assert f.kind.IsRelation() ==> f.kind.Related() in Targets(schema);
      var head :- (
        if f.kind.Attr? || !raw.Arr? then Ok(store)
        else
          var children :- NormalizeList(schema, f.kind.Related(), raw, 0, store);
          assert WellFormed(schema) ==> f.kind.SparesIdKey();
          AttachKeepsKeys(f.kind, entity, id, rec.fields, RecordKeys(raw.items), children.1);
          Ok(Attach(f.kind, entity, id, rec.fields, RecordKeys(raw.items), children.1)));
      var rest :- NormalizeFields(schema, entity, id, rec, k + 1, head);
      assert schema[entity][k..][1..] == schema[entity][k + 1..];
      Ok((rest.0[f.name := FillField(f.kind, raw)], rest.1))
  }

  /** Normalise the elements of the array `list` from position `i` on,
      as records of `entity`; the result's keys are the elements' keys, in
      order. A bare element is a key reference and creates no row. */
  function NormalizeList(schema: Schema, entity: string, list: Value, i: nat, store: Store): (r: Result<(seq<Value>, Store)>)
    requires list.Arr? && i <= |list.items|
    ensures r.Ok? ==> r.value.0 == ChildKeys(list.items[i..])
    ensures r.Ok? ==> Confined(schema, entity, store, r.value.1)
    ensures r.Ok? && WellFormed(schema) ==> Grows(store, r.value.1)
    ensures r.Ok? && WellFormed(schema) ==>
      forall j :: i <= j < |list.items| && list.items[j].Obj? ==>
        Lookup(TableOf(r.value.1, entity), ChildKey(list.items[j])).Some?
    ensures r.Ok? && WellFormed(schema) && KeyedStore(store) ==> KeyedStore(r.value.1)
    decreases list, 0, |list.items| - i
  {
    if i == |list.items| then Ok(([], store))
    else
      var item := list.items[i];
      var head :- (if item.Obj? then NormalizeRecord(schema, entity, item, store) else Ok((item, store)));
      var rest :- NormalizeList(schema, entity, list, i + 1, head.1);
      ChildKeysCons(list.items, i);
      Chain(schema, entity, store, head.1, rest.1);
      Ok(([head.0] + rest.0, rest.1))
  }

  /** `create`: the root data is one record or an array of records of
      `entity`; anything else is malformed. An error leaves the caller's
      store as it was (nothing is returned to replace it). */
  function Create(schema: Schema, entity: string, data: Value, store: Store): (r: Result<Store>)
    ensures !data.Obj? && !data.Arr? ==> r == Err(MalformedInput)
    ensures data.Obj? ==> r == (match NormalizeRecord(schema, entity, data, store)
      case Ok(res) => Ok(res.1)
      case Err(e) => Err(e))
    ensures data.Arr? ==> r == CreateAll(schema, entity, data.items, store)
    ensures r.Ok? && data.Obj? ==> Lookup(TableOf(r.value, entity), ChildKey(data)).Some?
    ensures r.Ok? && data.Arr? && WellFormed(schema) ==>
      forall j :: 0 <= j < |data.items| ==> Lookup(TableOf(r.value, entity), ChildKey(data.items[j])).Some?
    ensures r.Ok? ==> Confined(schema, entity, store, r.value)
    ensures r.Ok? && WellFormed(schema) ==> Grows(store, r.value)
    ensures r.Ok? && WellFormed(schema) && KeyedStore(store) ==> KeyedStore(r.value)
  {
    if data.Obj? then
      var res :- NormalizeRecord(schema, entity, data, store);
      Ok(res.1)
    else if data.Arr? then CreateAll(schema, entity, data.items, store)
    else Err(MalformedInput)
  }

  /** Normalise each root record in turn, threading the store. */
  function CreateAll(schema: Schema, entity: string, items: seq<Value>, store: Store): (r: Result<Store>)
    ensures r.Ok? ==> Confined(schema, entity, store, r.value)
    ensures r.Ok? && WellFormed(schema) ==> Grows(store, r.value)
    ensures r.Ok? && WellFormed(schema) ==>
      forall j :: 0 <= j < |items| ==> Lookup(TableOf(r.value, entity), ChildKey(items[j])).Some?
    ensures r.Ok? && WellFormed(schema) && KeyedStore(store) ==> KeyedStore(r.value)
    ensures (exists j :: 0 <= j < |items| && !items[j].Obj?) ==> r.Err?
  {
    if |items| == 0 then Ok(store)
    else if !items[0].Obj? then Err(MalformedInput)
    else
      var head :- NormalizeRecord(schema, entity, items[0], store);
      var rest := CreateAll(schema, entity, items[1..], head.1);
      if rest.Ok? then
        Chain(schema, entity, store, head.1, rest.value);
        LookupsCons(entity, items, head.1, rest.value);
        rest
      else rest
  }

  /** The head's row, kept by a growing store, and the rest's rows are all
      addressable. */
  lemma LookupsCons(entity: string, items: seq<Value>, s1: Store, s2: Store)
    requires |items| > 0
    ensures (Lookup(TableOf(s1, entity), ChildKey(items[0])).Some? && Grows(s1, s2) &&
             forall j :: 0 <= j < |items[1..]| ==> Lookup(TableOf(s2, entity), ChildKey(items[1..][j])).Some?) ==>
      forall j :: 0 <= j < |items| ==> Lookup(TableOf(s2, entity), ChildKey(items[j])).Some?
  {
    if Lookup(TableOf(s1, entity), ChildKey(items[0])).Some? && Grows(s1, s2) &&
      (forall j :: 0 <= j < |items[1..]| ==> Lookup(TableOf(s2, entity), ChildKey(items[1..][j])).Some?)
    {
      forall j | 0 <= j < |items| ensures Lookup(TableOf(s2, entity), ChildKey(items[j])).Some? {
        if j > 0 {
          assert items[j] == items[1..][j - 1];
        }
      }
    }
  }
}

=== FILE: normalizer_facts.dfy ===
/** Properties of normalisation that relate whole calls: what a record
    without relations, a list of such records and a record with one
    relation field normalise to, the row every created record gets, and
    how creating a sequence of roots composes. */
module NormalizerFacts {
  import opened Values
  import opened Schema
  import opened Tables
  import opened Normalizer

  /** The entity declares attributes only from the `k`-th field on. */
  predicate AttrsFrom(schema: Schema, entity: string, k: nat)
    requires entity in schema
  {
    forall j :: k <= j < |schema[entity]| ==> schema[entity][j].kind.Attr?
  }

  /** Attribute fields normalise to their filled values and leave the
      store alone. */
  lemma {:induction false} AttrFields(schema: Schema, entity: string, id: Value, rec: Value, k: nat, store: Store)
    requires entity in schema && rec.Obj? && k <= |schema[entity]|
    requires AttrsFrom(schema, entity, k)
    ensures NormalizeFields(schema, entity, id, rec, k, store) == Ok((FlatFields(schema[entity][k..], rec.fields), store))
    decreases |schema[entity]| - k
  {
    if k < |schema[entity]| {
      AttrFields(schema, entity, id, rec, k + 1, store);
      assert schema[entity][k..][1..] == schema[entity][k + 1..];
    }
  }

  /** A record whose id is new to its table and whose entity declares no
      relation is appended as exactly its flat row. */
  lemma {:induction false} LeafRecord(schema: Schema, entity: string, v: Value, store: Store)
    requires entity in schema && AttrsFrom(schema, entity, 0)
    requires v.Obj? && !Missing(v.fields, PrimaryKey)
    requires forall i :: 0 <= i < |TableOf(store, entity)| ==> KeyOf(TableOf(store, entity)[i]) != v.fields[PrimaryKey]
    ensures NormalizeRecord(schema, entity, v, store) ==
      Ok((v.fields[PrimaryKey],
          store[entity := TableOf(store, entity) + [FlatRow(schema, entity, v.fields, v.fields[PrimaryKey])]]))
  {
    var id := v.fields[PrimaryKey];
    AttrFields(schema, entity, id, v, 0, store);
    assert schema[entity][0..] == schema[entity];
    var row := FlatRow(schema, entity, v.fields, id);
    assert KeyOf(row) == id;
    UpsertFresh(TableOf(store, entity), row);
  }

  /** A record whose entity declares no relation is merged into its
      table as its flat row, whether or not its id is already there. */
  lemma LeafRecordPut(schema: Schema, entity: string, v: Value, store: Store)
    requires entity in schema && AttrsFrom(schema, entity, 0)
    requires v.Obj? && !Missing(v.fields, PrimaryKey)
    ensures NormalizeRecord(schema, entity, v, store) ==
      Ok((v.fields[PrimaryKey], Put(store, entity, FlatRow(schema, entity, v.fields, v.fields[PrimaryKey]))))
  {
    AttrFields(schema, entity, v.fields[PrimaryKey], v, 0, store);
    assert schema[entity][0..] == schema[entity];
    RecordFromFields(schema, entity, v, store, FlatFields(schema[entity], v.fields), store);
  }

  /** The flat rows of a list of records of `entity`. */
  function FlatRows(schema: Schema, entity: string, items: seq<Value>): (rows: seq<Row>)
    requires entity in schema
    requires forall j :: 0 <= j < |items| ==> items[j].Obj?
    ensures |rows| == |items|
    ensures forall j :: 0 <= j < |items| ==>
      rows[j] == FlatRow(schema, entity, items[j].fields, ChildKey(items[j])) && KeyOf(rows[j]) == ChildKey(items[j])
  {
    seq(|items|, j requires 0 <= j < |items| => FlatRow(schema, entity, items[j].fields, ChildKey(items[j])))
  }

  /** One step of normalising a list: the head record, then the rest. */
  lemma ListCons(schema: Schema, entity: string, list: Value, i: nat, store: Store,
                 key: Value, s1: Store, keys: seq<Value>, s2: Store)
    requires list.Arr? && i < |list.items| && list.items[i].Obj?
    requires NormalizeRecord(schema, entity, list.items[i], store) == Ok((key, s1))
    requires NormalizeList(schema, entity, list, i + 1, s1) == Ok((keys, s2))
    ensures NormalizeList(schema, entity, list, i, store) == Ok(([key] + keys, s2))
  {
  }

  /** A bare element is a key reference: it is listed and creates no row. */
  lemma ListBare(schema: Schema, entity: string, list: Value, i: nat, store: Store, keys: seq<Value>, s2: Store)
    requires list.Arr? && i < |list.items| && !list.items[i].Obj?
    requires NormalizeList(schema, entity, list, i + 1, store) == Ok((keys, s2))
    ensures NormalizeList(schema, entity, list, i, store) == Ok(([list.items[i]] + keys, s2))
  {
  }

  /** Normalising past the end of a list does nothing. */
  lemma ListNil(schema: Schema, entity: string, list: Value, store: Store)
    requires list.Arr?
    ensures NormalizeList(schema, entity, list, |list.items|, store) == Ok(([], store))
  {
  }

  /** Records of a relation-free entity are created one after the other,
      each merged into its table as its flat row; they contribute their
      ids as keys. */
  lemma {:induction false} LeafListUpserts(schema: Schema, entity: string, list: Value, i: nat, store: Store)
    requires entity in schema && AttrsFrom(schema, entity, 0) && entity in store
    requires list.Arr? && i <= |list.items|
    requires forall j :: i <= j < |list.items| ==> list.items[j].Obj? && !Missing(list.items[j].fields, PrimaryKey)
    ensures NormalizeList(schema, entity, list, i, store) ==
      Ok((ChildKeys(list.items[i..]),
          store[entity := UpsertAll(store[entity], FlatRows(schema, entity, list.items[i..]))]))
    decreases |list.items| - i
  {
    var items := list.items;
    if i == |items| {
      ListNil(schema, entity, list, store);
      assert items[i..] == [];
      assert store[entity := store[entity]] == store;
    } else {
      var item := items[i];
      var s1 := Put(store, entity, FlatRow(schema, entity, item.fields, item.fields[PrimaryKey]));
      LeafListUpserts(schema, entity, list, i + 1, s1);
      UpsertsHead(schema, entity, list, i, store);
    }
  }

  /** One step of `LeafListUpserts`: the head record is put, then the rest
      are created as the induction hypothesis says. */
  lemma UpsertsHead(schema: Schema, entity: string, list: Value, i: nat, store: Store)
    requires entity in schema && AttrsFrom(schema, entity, 0) && entity in store
    requires list.Arr? && i < |list.items|
    requires forall j :: i <= j < |list.items| ==> list.items[j].Obj? && !Missing(list.items[j].fields, PrimaryKey)
    requires var item := list.items[i];
      PrimaryKey in item.fields &&
      var s1 := Put(store, entity, FlatRow(schema, entity, item.fields, item.fields[PrimaryKey]));
      NormalizeList(schema, entity, list, i + 1, s1) ==
        Ok((ChildKeys(list.items[i + 1..]),
            s1[entity := UpsertAll(s1[entity], FlatRows(schema, entity, list.items[i + 1..]))]))
    ensures NormalizeList(schema, entity, list, i, store) ==
      Ok((ChildKeys(list.items[i..]),
          store[entity := UpsertAll(store[entity], FlatRows(schema, entity, list.items[i..]))]))
  {
    var items := list.items;
    var item := items[i];
    var row := FlatRow(schema, entity, item.fields, item.fields[PrimaryKey]);
    LeafRecordPut(schema, entity, item, store);
    var s1 := Put(store, entity, row);
    assert s1 == store[entity := Upsert(store[entity], row)];
    var rest := FlatRows(schema, entity, items[i + 1..]);
    var s2 := s1[entity := UpsertAll(s1[entity], rest)];
    ListCons(schema, entity, list, i, store, item.fields[PrimaryKey], s1, ChildKeys(items[i + 1..]), s2);
    UpsertsStep(schema, entity, items, i, store);
  }

  /** The bookkeeping of one step of `LeafListUpserts`. */
  lemma UpsertsStep(schema: Schema, entity: string, items: seq<Value>, i: nat, store: Store)
    requires entity in schema && entity in store && i < |items|
    requires forall j :: i <= j < |items| ==> items[j].Obj?
    ensures [ChildKey(items[i])] + ChildKeys(items[i + 1..]) == ChildKeys(items[i..])
    ensures var row := FlatRow(schema, entity, items[i].fields, ChildKey(items[i]));
      var s1 := store[entity := Upsert(store[entity], row)];
      s1[entity := UpsertAll(s1[entity], FlatRows(schema, entity, items[i + 1..]))] ==
        store[entity := UpsertAll(store[entity], FlatRows(schema, entity, items[i..]))]
  {
    FlatRowsCons(schema, entity, items, i);
    var row := FlatRow(schema, entity, items[i].fields, ChildKey(items[i]));
    var rest := FlatRows(schema, entity, items[i + 1..]);
    assert ([row] + rest)[1..] == rest;
  }

  /** Records of a relation-free entity, with distinct ids new to the
      table, are appended in order and contribute their ids as keys. */
  lemma {:induction false} LeafList(schema: Schema, entity: string, list: Value, i: nat, store: Store)
    requires entity in schema && AttrsFrom(schema, entity, 0) && entity in store
    requires list.Arr? && i <= |list.items|
    requires forall j :: i <= j < |list.items| ==> list.items[j].Obj? && !Missing(list.items[j].fields, PrimaryKey)
    requires forall j, l :: i <= j < l < |list.items| ==> ChildKey(list.items[j]) != ChildKey(list.items[l])
    requires forall j, t :: i <= j < |list.items| && 0 <= t < |store[entity]| ==>
      KeyOf(store[entity][t]) != ChildKey(list.items[j])
    ensures NormalizeList(schema, entity, list, i, store) ==
      Ok((ChildKeys(list.items[i..]), store[entity := store[entity] + FlatRows(schema, entity, list.items[i..])]))
    decreases |list.items| - i
  {
    if i == |list.items| {
      ListNil(schema, entity, list, store);
      assert list.items[i..] == [];
      assert ChildKeys([]) == [];
      assert FlatRows(schema, entity, []) == [];
      assert store[entity] + [] == store[entity];
      assert store[entity := store[entity]] == store;
    } else {
      var item := list.items[i];
      var row := FlatRow(schema, entity, item.fields, item.fields[PrimaryKey]);
      var s1 := store[entity := store[entity] + [row]];
      LeafList(schema, entity, list, i + 1, s1);
      LeafListStep(schema, entity, list, i, store);
    }
  }

  lemma {:induction false} LeafListStep(schema: Schema, entity: string, list: Value, i: nat, store: Store)
    requires entity in schema && AttrsFrom(schema, entity, 0) && entity in store
    requires list.Arr? && i < |list.items|
    requires forall j :: i <= j < |list.items| ==> list.items[j].Obj?
    requires !Missing(list.items[i].fields, PrimaryKey)
    requires forall t :: 0 <= t < |store[entity]| ==> KeyOf(store[entity][t]) != ChildKey(list.items[i])
    requires
      var row := FlatRow(schema, entity, list.items[i].fields, list.items[i].fields[PrimaryKey]);
      var s1 := store[entity := store[entity] + [row]];
      NormalizeList(schema, entity, list, i + 1, s1) ==
        Ok((ChildKeys(list.items[i + 1..]), s1[entity := s1[entity] + FlatRows(schema, entity, list.items[i + 1..])]))
    ensures NormalizeList(schema, entity, list, i, store) ==
      Ok((ChildKeys(list.items[i..]), store[entity := store[entity] + FlatRows(schema, entity, list.items[i..])]))
  {
    var item := list.items[i];
    var id := item.fields[PrimaryKey];
    var row := FlatRow(schema, entity, item.fields, id);
    var s1 := store[entity := store[entity] + [row]];
    var rest := FlatRows(schema, entity, list.items[i + 1..]);
    LeafRecord(schema, entity, item, store);
    ListCons(schema, entity, list, i, store, id, s1, ChildKeys(list.items[i + 1..]), s1[entity := s1[entity] + rest]);
    ConsFacts(schema, entity, list.items, i, store);
  }

  lemma ConsFacts(schema: Schema, entity: string, items: seq<Value>, i: nat, store: Store)
    requires entity in schema && entity in store && i < |items|
    requires forall j :: i <= j < |items| ==> items[j].Obj?
    requires !Missing(items[i].fields, PrimaryKey)
    ensures var row := FlatRow(schema, entity, items[i].fields, items[i].fields[PrimaryKey]);
      var s1 := store[entity := store[entity] + [row]];
      var rest := FlatRows(schema, entity, items[i + 1..]);
      && ChildKeys(items[i..]) == [items[i].fields[PrimaryKey]] + ChildKeys(items[i + 1..])
      && s1[entity := s1[entity] + rest] == store[entity := store[entity] + FlatRows(schema, entity, items[i..])]
  {
    FlatRowsCons(schema, entity, items, i);
    var row := FlatRow(schema, entity, items[i].fields, items[i].fields[PrimaryKey]);
    var rest := FlatRows(schema, entity, items[i + 1..]);
    assert store[entity] + [row] + rest == store[entity] + ([row] + rest);
  }

  /** The flat rows and keys of a suffix of records: its first record's,
      then the rest's. */
  lemma FlatRowsCons(schema: Schema, entity: string, items: seq<Value>, i: nat)
    requires entity in schema && i < |items|
    requires forall j :: i <= j < |items| ==> items[j].Obj?
    ensures FlatRows(schema, entity, items[i..]) ==
      [FlatRow(schema, entity, items[i].fields, ChildKey(items[i]))] + FlatRows(schema, entity, items[i + 1..])
    ensures ChildKeys(items[i..]) == [ChildKey(items[i])] + ChildKeys(items[i + 1..])
  {
    var a := FlatRows(schema, entity, items[i..]);
    var b := [FlatRow(schema, entity, items[i].fields, ChildKey(items[i]))] + FlatRows(schema, entity, items[i + 1..]);
    forall k | 0 <= k < |a| ensures a[k] == b[k] {
      if k > 0 {
        assert items[i..][k] == items[i + 1..][k - 1];
      }
    }
    ChildKeysCons(items, i);
  }

  /** One attribute step of normalising fields. */
  lemma FieldsConsAttr(schema: Schema, entity: string, id: Value, rec: Value, k: nat, store: Store, row: Row, s2: Store)
    requires entity in schema && rec.Obj? && k < |schema[entity]| && schema[entity][k].kind.Attr?
    requires NormalizeFields(schema, entity, id, rec, k + 1, store) == Ok((row, s2))
    ensures NormalizeFields(schema, entity, id, rec, k, store) ==
      Ok((row[schema[entity][k].name := FillField(schema[entity][k].kind, Field(rec.fields, schema[entity][k].name))], s2))
  {
  }

  /** One relation step of normalising fields: the children, their
      attachment, then the remaining fields. */
  lemma FieldsConsRelation(schema: Schema, entity: string, id: Value, rec: Value, k: nat, store: Store,
                           keys: seq<Value>, s1: Store, row: Row, s3: Store)
    requires entity in schema && rec.Obj? && k < |schema[entity]|
    requires schema[entity][k].kind.IsRelation() && Field(rec.fields, schema[entity][k].name).Arr?
    requires NormalizeList(schema, schema[entity][k].kind.Related(), Field(rec.fields, schema[entity][k].name), 0, store) == Ok((keys, s1))
    requires NormalizeFields(schema, entity, id, rec, k + 1, Attach(schema[entity][k].kind, entity, id, rec.fields, RecordKeys(Field(rec.fields, schema[entity][k].name).items), s1)) == Ok((row, s3))
    ensures NormalizeFields(schema, entity, id, rec, k, store) ==
      Ok((row[schema[entity][k].name := FillField(schema[entity][k].kind, Field(rec.fields, schema[entity][k].name))], s3))
  {
  }

  /** A record is its fields' row plus `$id`, merged into its table. */
  lemma RecordFromFields(schema: Schema, entity: string, v: Value, store: Store, row: Row, s2: Store)
    requires entity in schema && v.Obj? && !Missing(v.fields, PrimaryKey)
    requires NormalizeFields(schema, entity, v.fields[PrimaryKey], v, 0, store) == Ok((row, s2))
    ensures NormalizeRecord(schema, entity, v, store) ==
      Ok((v.fields[PrimaryKey], Put(s2, entity, row[IdKey := v.fields[PrimaryKey]])))
  {
  }

  /** All fields but the `r`-th are attributes; the fields from `k` on
      normalise to their flat row and the store the relation leaves. */
  lemma {:induction false} OneRelationFields(schema: Schema, entity: string, id: Value, rec: Value, r: nat, k: nat,
                                             store: Store, keys: seq<Value>, s1: Store)
    requires entity in schema && rec.Obj? && r < |schema[entity]| && k <= r
    requires forall j :: 0 <= j < |schema[entity]| && j != r ==> schema[entity][j].kind.Attr?
    requires schema[entity][r].kind.IsRelation() && Field(rec.fields, schema[entity][r].name).Arr?
    requires NormalizeList(schema, schema[entity][r].kind.Related(), Field(rec.fields, schema[entity][r].name), 0, store) == Ok((keys, s1))
    ensures NormalizeFields(schema, entity, id, rec, k, store) ==
      Ok((FlatFields(schema[entity][k..], rec.fields), Attach(schema[entity][r].kind, entity, id, rec.fields,
                RecordKeys(Field(rec.fields, schema[entity][r].name).items), s1)))
    decreases r - k
  {
    var fields := schema[entity];
    var s2 := Attach(fields[r].kind, entity, id, rec.fields, RecordKeys(Field(rec.fields, fields[r].name).items), s1);
    assert fields[k..][1..] == fields[k + 1..];
    if k == r {
      AttrFields(schema, entity, id, rec, r + 1, s2);
      FieldsConsRelation(schema, entity, id, rec, r, store, keys, s1, FlatFields(fields[r + 1..], rec.fields), s2);
    } else {
      OneRelationFields(schema, entity, id, rec, r, k + 1, store, keys, s1);
      FieldsConsAttr(schema, entity, id, rec, k, store, FlatFields(fields[k + 1..], rec.fields), s2);
    }
  }

  /** A record of an entity with exactly one relation field, given as an
      array: its children are normalised, get their keys attached, and
      then its own flat row is merged into its table. */
  lemma {:induction false} OneRelationRecord(schema: Schema, entity: string, v: Value, r: nat,
                                             store: Store, keys: seq<Value>, s1: Store)
    requires entity in schema && r < |schema[entity]|
    requires forall j :: 0 <= j < |schema[entity]| && j != r ==> schema[entity][j].kind.Attr?
    requires v.Obj? && !Missing(v.fields, PrimaryKey)
    requires schema[entity][r].kind.IsRelation() && Field(v.fields, schema[entity][r].name).Arr?
    requires NormalizeList(schema, schema[entity][r].kind.Related(), Field(v.fields, schema[entity][r].name), 0, store) == Ok((keys, s1))
    ensures NormalizeRecord(schema, entity, v, store) ==
      Ok((v.fields[PrimaryKey],
          Put(Attach(schema[entity][r].kind, entity, v.fields[PrimaryKey], v.fields,
                     RecordKeys(Field(v.fields, schema[entity][r].name).items), s1), entity,
              FlatRow(schema, entity, v.fields, v.fields[PrimaryKey]))))
  {
    var id := v.fields[PrimaryKey];
    OneRelationFields(schema, entity, id, v, r, 0, store, keys, s1);
    assert schema[entity][0..] == schema[entity];
    RecordFromFields(schema, entity, v, store, FlatFields(schema[entity], v.fields),
      Attach(schema[entity][r].kind, entity, id, v.fields, RecordKeys(Field(v.fields, schema[entity][r].name).items), s1));
  }

  /** The rows `rows` after a relation of `parent` (key `id`) attached
      its keys to each. */
  function AttachedRows(kind: Kind, parent: string, id: Value, rows: seq<Row>): (r: seq<Row>)
    requires kind.IsRelation()
    ensures |r| == |rows|
    ensures forall j :: 0 <= j < |rows| ==> r[j] == AttachRow(kind, parent, id, rows[j])
  {
    seq(|rows|, j requires 0 <= j < |rows| => AttachRow(kind, parent, id, rows[j]))
  }

  /** Attaching to children just appended after rows that are not among
      them changes exactly the children. */
  lemma AttachFresh(kind: Kind, parent: string, id: Value, record: Row, keys: seq<Value>, s: Store, t: Table, rows: seq<Row>)
    requires kind.IsRelation() && !kind.Through?
    requires kind.Related() in s && s[kind.Related()] == t + rows
    requires forall i :: 0 <= i < |t| ==> KeyOf(t[i]) !in keys
    requires forall j :: 0 <= j < |rows| ==> KeyOf(rows[j]) in keys
    ensures Attach(kind, parent, id, record, keys, s) == s[kind.Related() := t + AttachedRows(kind, parent, id, rows)]
  {
    var r := Attach(kind, parent, id, record, keys, s);
    var rel := kind.Related();
    assert rel in r;
    assert r[rel] == t + AttachedRows(kind, parent, id, rows) by {
      assert TableOf(r, rel) == r[rel];
      assert TableOf(s, rel) == t + rows;
      forall i | 0 <= i < |t| + |rows|
        ensures r[rel][i] == (t + AttachedRows(kind, parent, id, rows))[i]
      {
        if i < |t| {
          assert (t + rows)[i] == t[i];
        } else {
          assert (t + rows)[i] == rows[i - |t|];
        }
      }
    }
    assert forall e :: e in r <==> e in s;
  }

  /** A relation with no record children attaches nothing. */
  lemma AttachNoKeys(kind: Kind, parent: string, id: Value, record: Row, s: Store)
    requires kind.IsRelation()
    ensures Attach(kind, parent, id, record, [], s) == s
  {
    var rel := kind.Related();
    if !kind.Through? && rel in s {
      var r := Attach(kind, parent, id, record, [], s);
      assert TableOf(r, rel) == r[rel] && TableOf(s, rel) == s[rel];
      assert r[rel] == s[rel];
      assert forall e :: e in r <==> e in s;
    }
  }

  /** Creating a row whose `$id` is new to its table appends it there. */
  lemma PutFresh(s: Store, entity: string, row: Row)
    requires forall t :: 0 <= t < |TableOf(s, entity)| ==> KeyOf(TableOf(s, entity)[t]) != KeyOf(row)
    ensures Put(s, entity, row) == s[entity := TableOf(s, entity) + [row]]
  {
    UpsertFresh(TableOf(s, entity), row);
  }

  /** Children of a relation-free entity with new distinct ids are
      appended as their flat rows. */
  lemma {:induction false} LeafChildren(schema: Schema, rel: string, items: seq<Value>, store: Store)
    requires rel in schema && AttrsFrom(schema, rel, 0) && rel in store
    requires forall j :: 0 <= j < |items| ==> items[j].Obj? && !Missing(items[j].fields, PrimaryKey)
    requires forall j, l :: 0 <= j < l < |items| ==> ChildKey(items[j]) != ChildKey(items[l])
    requires forall j, t :: 0 <= j < |items| && 0 <= t < |store[rel]| ==> KeyOf(store[rel][t]) != ChildKey(items[j])
    ensures NormalizeList(schema, rel, Arr(items), 0, store) ==
      Ok((ChildKeys(items), store[rel := store[rel] + FlatRows(schema, rel, items)]))
  {
    LeafList(schema, rel, Arr(items), 0, store);
    assert items[0..] == items;
  }

  /** Those children, given their parent's keys. */
  lemma {:induction false} LeafChildrenAttached(schema: Schema, kind: Kind, entity: string, id: Value, rec: Row,
                                                items: seq<Value>, store: Store)
    requires kind.IsRelation() && !kind.Through?
    requires kind.Related() in schema && kind.Related() in store
    requires forall j :: 0 <= j < |items| ==> items[j].Obj?
    requires forall j, t :: 0 <= j < |items| && 0 <= t < |store[kind.Related()]| ==>
      KeyOf(store[kind.Related()][t]) != ChildKey(items[j])
    ensures var rel := kind.Related();
      var rows := FlatRows(schema, rel, items);
      Attach(kind, entity, id, rec, RecordKeys(items), store[rel := store[rel] + rows]) ==
        store[rel := store[rel] + AttachedRows(kind, entity, id, rows)]
  {
    var rel := kind.Related();
    var rows := FlatRows(schema, rel, items);
    var keys := ChildKeys(items);
    assert RecordKeys(items) == keys;
    FreshKeys(store[rel], items);
    AttachAppended(kind, entity, id, rec, keys, store, rows);
  }

  /** Attaching to rows appended under their own keys, after rows holding
      none of those keys, changes exactly the appended rows. */
  lemma AttachAppended(kind: Kind, parent: string, id: Value, record: Row, keys: seq<Value>, store: Store, rows: seq<Row>)
    requires kind.IsRelation() && !kind.Through? && kind.Related() in store
    requires |rows| == |keys| && forall j :: 0 <= j < |rows| ==> KeyOf(rows[j]) == keys[j]
    requires forall i :: 0 <= i < |store[kind.Related()]| ==> KeyOf(store[kind.Related()][i]) !in keys
    ensures var rel := kind.Related();
      Attach(kind, parent, id, record, keys, store[rel := store[rel] + rows]) ==
        store[rel := store[rel] + AttachedRows(kind, parent, id, rows)]
  {
    var rel := kind.Related();
    AttachFresh(kind, parent, id, record, keys, store[rel := store[rel] + rows], store[rel], rows);
  }

  /** Rows whose keys differ from every child's key hold none of the
      children's keys. */
  lemma FreshKeys(t: Table, items: seq<Value>)
    requires forall j, i :: 0 <= j < |items| && 0 <= i < |t| ==> KeyOf(t[i]) != ChildKey(items[j])
    ensures forall i :: 0 <= i < |t| ==> KeyOf(t[i]) !in ChildKeys(items)
  {
    var keys := ChildKeys(items);
    forall i | 0 <= i < |t| ensures KeyOf(t[i]) !in keys {
      assert forall j :: 0 <= j < |keys| ==> keys[j] != KeyOf(t[i]);
    }
  }

  /** A parent whose only relation nests records of a relation-free
      entity, all with new distinct ids, into a store where the parent's
      id is new too: the children are appended with their keys attached,
      then the parent's flat row is appended. */
  lemma {:induction false} NestedLeaves(schema: Schema, entity: string, v: Value, r: nat, store: Store)
    requires entity in schema && r < |schema[entity]|
    requires forall j :: 0 <= j < |schema[entity]| && j != r ==> schema[entity][j].kind.Attr?
    requires schema[entity][r].kind.IsRelation() && !schema[entity][r].kind.Through?
    requires var rel := schema[entity][r].kind.Related();
      rel in schema && AttrsFrom(schema, rel, 0) && rel in store && rel != entity
    requires v.Obj? && !Missing(v.fields, PrimaryKey) && Field(v.fields, schema[entity][r].name).Arr?
    requires var items := Field(v.fields, schema[entity][r].name).items;
      && (forall j :: 0 <= j < |items| ==> items[j].Obj? && !Missing(items[j].fields, PrimaryKey))
      && (forall j, l :: 0 <= j < l < |items| ==> ChildKey(items[j]) != ChildKey(items[l]))
      && (forall j, t :: 0 <= j < |items| && 0 <= t < |store[schema[entity][r].kind.Related()]| ==>
            KeyOf(store[schema[entity][r].kind.Related()][t]) != ChildKey(items[j]))
    requires forall t :: 0 <= t < |TableOf(store, entity)| ==> KeyOf(TableOf(store, entity)[t]) != v.fields[PrimaryKey]
    ensures var kind := schema[entity][r].kind;
      var rel := kind.Related();
      var id := v.fields[PrimaryKey];
      var items := Field(v.fields, schema[entity][r].name).items;
      NormalizeRecord(schema, entity, v, store) ==
        Ok((id, store[rel := store[rel] + AttachedRows(kind, entity, id, FlatRows(schema, rel, items))]
                     [entity := TableOf(store, entity) + [FlatRow(schema, entity, v.fields, id)]]))
  {
    var kind := schema[entity][r].kind;
    var rel := kind.Related();
    var id := v.fields[PrimaryKey];
    var list := Field(v.fields, schema[entity][r].name);
    var rows := FlatRows(schema, rel, list.items);
    LeafChildren(schema, rel, list.items, store);
    LeafChildrenAttached(schema, kind, entity, id, v.fields, list.items, store);
    var s1 := store[rel := store[rel] + rows];
    OneRelationRecord(schema, entity, v, r, store, ChildKeys(list.items), s1);
    var s2 := store[rel := store[rel] + AttachedRows(kind, entity, id, rows)];
    var row := FlatRow(schema, entity, v.fields, id);
    assert KeyOf(row) == id;
    assert TableOf(s2, entity) == TableOf(store, entity);
    PutFresh(s2, entity, row);
  }

  /** Creating a sequence of roots: the first root, then the rest from
      the store it left. */
  lemma CreateAllCons(schema: Schema, entity: string, items: seq<Value>, store: Store, key: Value, s1: Store)
    requires |items| > 0 && items[0].Obj?
    requires NormalizeRecord(schema, entity, items[0], store) == Ok((key, s1))
    ensures CreateAll(schema, entity, items, store) == CreateAll(schema, entity, items[1..], s1)
  {
  }

  lemma CreateAllNil(schema: Schema, entity: string, store: Store)
    ensures CreateAll(schema, entity, [], store) == Ok(store)
  {
  }

  /** Creating the roots `a + b` is creating `a`, then `b` from the store
      that left; an error in `a` stops before `b`. */
  lemma {:induction false} CreateAllAppend(schema: Schema, entity: string, a: seq<Value>, b: seq<Value>, store: Store)
    ensures CreateAll(schema, entity, a + b, store) ==
      match CreateAll(schema, entity, a, store)
      case Ok(s1) => CreateAll(schema, entity, b, s1)
      case Err(e) => Err(e)
  {
    if |a| > 0 {
      assert (a + b)[0] == a[0];
      assert (a + b)[1..] == a[1..] + b;
      if a[0].Obj? {
        match NormalizeRecord(schema, entity, a[0], store)
        case Ok(head) =>
          CreateAllAppend(schema, entity, a[1..], b, head.1);
        case Err(_) =>
      }
    } else {
      assert a + b == b;
    }
  }

  /** The `k`-th declared field of a flat row, for the first declaration
      of that name. */
  lemma {:induction false} FlatFieldsAt(fields: seq<FieldDef>, raw: map<string, Value>, k: nat)
    requires k < |fields|
    requires forall j :: 0 <= j < k ==> fields[j].name != fields[k].name
    ensures fields[k].name in FlatFields(fields, raw)
    ensures FlatFields(fields, raw)[fields[k].name] == FillField(fields[k].kind, Field(raw, fields[k].name))
  {
    if k > 0 {
      FlatFieldsAt(fields[1..], raw, k - 1);
    }
  }

  /** A flat row holds exactly the declared field names. */
  lemma {:induction false} FlatFieldsDomain(fields: seq<FieldDef>, raw: map<string, Value>)
    ensures forall f :: f in FlatFields(fields, raw) <==> exists j :: 0 <= j < |fields| && fields[j].name == f
  {
    if |fields| > 0 {
      FlatFieldsDomain(fields[1..], raw);
      forall f | f in FlatFields(fields, raw) ensures exists j :: 0 <= j < |fields| && fields[j].name == f {
        if f != fields[0].name {
          assert f in FlatFields(fields[1..], raw);
          var j :| 0 <= j < |fields[1..]| && fields[1..][j].name == f;
          assert fields[j + 1].name == f;
        }
      }
      forall f | exists j :: 0 <= j < |fields| && fields[j].name == f ensures f in FlatFields(fields, raw) {
        var j :| 0 <= j < |fields| && fields[j].name == f;
        if j > 0 {
          assert fields[1..][j - 1].name == f;
        }
      }
    }
  }

  /** `fields[k]` is the first declaration named `f`, an attribute
      defaulting to `null`. */
  predicate NullAttrAt(fields: seq<FieldDef>, f: string, k: nat)
  {
    k < |fields| && fields[k] == FieldDef(f, Attr(Null)) &&
    forall j :: 0 <= j < k ==> fields[j].name != f
  }

  /** The morph discriminator: a child of a morph-many relation whose two
      morph fields are declared as `null`-defaulting attributes ends up
      with the parent's key and entity name in exactly the morph fields
      its raw record leaves missing, and keeps the values it gives. */
  lemma MorphFieldsAttached(schema: Schema, rel: string, kind: Kind, parent: string, id: Value,
                            raw: map<string, Value>, key: Value, k1: nat, k2: nat)
    requires rel in schema && kind.MorphMany?
    requires kind.morphId != kind.morphType && kind.morphId != IdKey && kind.morphType != IdKey
    requires NullAttrAt(schema[rel], kind.morphId, k1) && NullAttrAt(schema[rel], kind.morphType, k2)
    ensures var r := AttachRow(kind, parent, id, FlatRow(schema, rel, raw, key));
      && Field(r, kind.morphId) == (if Missing(raw, kind.morphId) then id else Field(raw, kind.morphId))
      && Field(r, kind.morphType) == (if Missing(raw, kind.morphType) then Str(parent) else Field(raw, kind.morphType))
  {
    FlatFieldsAt(schema[rel], raw, k1);
    FlatFieldsAt(schema[rel], raw, k2);
  }

  /** The row a successful create leaves for a record: addressed by the
      record's id, `$id` equal to it, and every declared field (other than
      `$id`) as filled -- so a declared `id` attribute equals `$id`, and a
      relation given an array lists its children's keys in input order. */
  lemma {:induction false} CreatedRow(schema: Schema, entity: string, v: Value, store: Store, k: nat)
    requires NormalizeRecord(schema, entity, v, store).Ok?
    ensures var r := NormalizeRecord(schema, entity, v, store).value;
      && Lookup(TableOf(r.1, entity), r.0).Some?
      && r.0 == v.fields[PrimaryKey]
      && Lookup(TableOf(r.1, entity), r.0).value[IdKey] == v.fields[PrimaryKey]
    ensures var r := NormalizeRecord(schema, entity, v, store).value;
      var row := Lookup(TableOf(r.1, entity), r.0).value;
      var fields := schema[entity];
      k < |fields| && fields[k].name != IdKey && (forall j :: 0 <= j < k ==> fields[j].name != fields[k].name) ==>
        && fields[k].name in row
        && row[fields[k].name] == FillField(fields[k].kind, Field(v.fields, fields[k].name))
        && (fields[k].name == PrimaryKey && fields[k].kind.Attr? ==> row[fields[k].name] == row[IdKey])
        && (fields[k].kind.IsRelation() && Field(v.fields, fields[k].name).Arr? ==>
              row[fields[k].name] == Arr(ChildKeys(Field(v.fields, fields[k].name).items)))
  {
    var r := NormalizeRecord(schema, entity, v, store).value;
    var id := v.fields[PrimaryKey];
    var flat := FlatRow(schema, entity, v.fields, id);
    assert flat[IdKey] == id;
    var fields := schema[entity];
    if k < |fields| && fields[k].name != IdKey && (forall j :: 0 <= j < k ==> fields[j].name != fields[k].name) {
      FlatFieldsAt(fields, v.fields, k);
      assert flat[fields[k].name] == FlatFields(fields, v.fields)[fields[k].name];
    }
  }

  /** Roots of a relation-free entity, with distinct ids new to the
      table, are appended as exactly their flat rows, in order: nothing is
      attached to them and no other table changes. */
  lemma {:induction false} LeafRoots(schema: Schema, entity: string, items: seq<Value>, store: Store)
    requires entity in schema && AttrsFrom(schema, entity, 0) && entity in store
    requires forall j :: 0 <= j < |items| ==> items[j].Obj? && !Missing(items[j].fields, PrimaryKey)
    requires forall j, l :: 0 <= j < l < |items| ==> ChildKey(items[j]) != ChildKey(items[l])
    requires forall j, t :: 0 <= j < |items| && 0 <= t < |store[entity]| ==> KeyOf(store[entity][t]) != ChildKey(items[j])
    ensures CreateAll(schema, entity, items, store) == Ok(store[entity := store[entity] + FlatRows(schema, entity, items)])
  {
    if |items| == 0 {
      assert store[entity] + [] == store[entity];
      assert store[entity := store[entity]] == store;
    } else {
      var row := FlatRow(schema, entity, items[0].fields, items[0].fields[PrimaryKey]);
      var s1 := store[entity := store[entity] + [row]];
      LeafRoots(schema, entity, items[1..], s1);
      LeafRootsStep(schema, entity, items, store);
    }
  }

  lemma {:induction false} LeafRootsStep(schema: Schema, entity: string, items: seq<Value>, store: Store)
    requires entity in schema && AttrsFrom(schema, entity, 0) && entity in store
    requires |items| > 0
    requires forall j :: 0 <= j < |items| ==> items[j].Obj?
    requires !Missing(items[0].fields, PrimaryKey)
    requires forall t :: 0 <= t < |store[entity]| ==> KeyOf(store[entity][t]) != ChildKey(items[0])
    requires
      var row := FlatRow(schema, entity, items[0].fields, items[0].fields[PrimaryKey]);
      var s1 := store[entity := store[entity] + [row]];
      CreateAll(schema, entity, items[1..], s1) == Ok(s1[entity := s1[entity] + FlatRows(schema, entity, items[1..])])
    ensures CreateAll(schema, entity, items, store) == Ok(store[entity := store[entity] + FlatRows(schema, entity, items)])
  {
    var id := items[0].fields[PrimaryKey];
    var row := FlatRow(schema, entity, items[0].fields, id);
    var s1 := store[entity := store[entity] + [row]];
    LeafRecord(schema, entity, items[0], store);
    CreateAllCons(schema, entity, items, store, id, s1);
    ConsFacts(schema, entity, items, 0, store);
    assert items[0..] == items;
    var expected := store[entity := store[entity] + FlatRows(schema, entity, items)];
    assert s1[entity := s1[entity] + FlatRows(schema, entity, items[1..])] == expected;
    assert CreateAll(schema, entity, items, store) == CreateAll(schema, entity, items[1..], s1);
  }
}

=== FILE: paths.dfy ===
/** Dotted relation paths: `"a.b.c".split('.')` and `parts.join('.')`,
    with the round trips that let a nested eager load strip one segment. */
module Paths {

  const Dot: char := '.'

  /** Position of the first `.` in `s`. */
  function FirstDot(s: string): (i: nat)
    requires Dot in s
    ensures i < |s| && s[i] == Dot
    ensures Dot !in s[..i]
  {
    if s[0] == Dot then 0
    else
      assert Dot in s[1..] by {
        var k :| 0 <= k < |s| && s[k] == Dot;
        assert s[1..][k - 1] == Dot;
      }
      var j := FirstDot(s[1..]);
      assert s[..j + 1] == [s[0]] + s[1..][..j];
      j + 1
  }

  /** `s.split('.')`: the text between dots, so never empty. */
  function Split(s: string): (parts: seq<string>)
    ensures |parts| >= 1
    ensures forall i :: 0 <= i < |parts| ==> Dot !in parts[i]
    decreases |s|
  {
    if Dot !in s then [s]
    else
      var i := FirstDot(s);
      [s[..i]] + Split(s[i + 1..])
  }

  /** `parts.join('.')`. */
  function Join(parts: seq<string>): (s: string)
    requires |parts| >= 1
    ensures |s| >= |parts[0]|
  {
    if |parts| == 1 then parts[0]
    else parts[0] + [Dot] + Join(parts[1..])
  }

  /** Splitting and rejoining gives back the name. */
  lemma {:induction false} JoinSplit(s: string)
    ensures Join(Split(s)) == s
    decreases |s|
  {
    if Dot in s {
      var i := FirstDot(s);
      JoinSplit(s[i + 1..]);
      assert s == s[..i] + [Dot] + s[i + 1..];
    }
  }

  /** Joining dot-free parts and splitting again gives back the parts. */
  lemma {:induction false} SplitJoin(parts: seq<string>)
    requires |parts| >= 1
    requires forall i :: 0 <= i < |parts| ==> Dot !in parts[i]
    ensures Split(Join(parts)) == parts
  {
    if |parts| > 1 {
      var s := Join(parts);
      var rest := Join(parts[1..]);
      SplitJoin(parts[1..]);
      assert s[|parts[0]|] == Dot;
      assert Dot in s;
      var i := FirstDot(s);
      assert s[..|parts[0]|] == parts[0];
      assert s[..i] == parts[0];
      assert s[i + 1..] == rest;
    }
  }

  /** The path a dotted name forwards: split, drop the head, rejoin. */
  function Tail(name: string): (rest: string)
    requires |Split(name)| != 1
    ensures Dot in name && rest == name[FirstDot(name) + 1..]
    ensures |Split(rest)| == |Split(name)| - 1
  {
    var parts := Split(name);
    SplitJoin(parts[1..]);
    JoinSplit(name[FirstDot(name) + 1..]);
    Join(parts[1..])
  }

  /** The forwarded path's segments are the name's segments without the
      first one. */
  lemma TailSegments(name: string)
    requires |Split(name)| != 1
    ensures Split(Tail(name)) == Split(name)[1..]
  {
    SplitJoin(Split(name)[1..]);
  }
}

=== FILE: query.dfy ===
/** The minimal query builder the relation layer drives: an entity name,
    `where` predicates combined by AND, and eager-load `with` paths.
    `Get` is the entity's table filtered by every predicate, in table order. */
module Query {
  import opened Values
  import Seqs

  /** The three shapes of `where` the relation layer issues. */
  datatype Pred =
    | FieldEquals(field: string, value: Value)      // where(field, literal)
    | FieldAmong(field: string, values: seq<Value>) // where(field, id => values.includes(id))
    | Gate(result: bool)                             // where(() => result)

  datatype Query = Query(entity: string, wheres: seq<Pred>, withs: seq<string>)

  /** What the user constraint callback returns: `Some(b)` for a boolean,
      `None` for anything else (including `undefined`). */
  type Constraint = Query -> Option<bool>

  /** A relation load request: the (possibly dotted) relation name and the
      optional constraint. */
  datatype LoadRequest = LoadRequest(name: string, constraint: Option<Constraint>)

  /** A fresh query on `entity` with nothing accumulated. */
  function New(entity: string): (q: Query)
    ensures q.entity == entity && q.wheres == [] && q.withs == []
  {
    Query(entity, [], [])
  }

  predicate Holds(p: Pred, row: Row)
  {
    match p
    case FieldEquals(f, v) => Field(row, f) == v
    case FieldAmong(f, vs) => Field(row, f) in vs
    case Gate(b) => b
  }

  /** The row passes every accumulated `where`. */
  predicate Admits(wheres: seq<Pred>, row: Row)
  {
    forall i :: 0 <= i < |wheres| ==> Holds(wheres[i], row)
  }

  /** `query.where(...)`: one more conjunct. */
  function Where(q: Query, p: Pred): (r: Query)
    ensures r.entity == q.entity && r.withs == q.withs
    ensures forall row :: Admits(r.wheres, row) <==> Admits(q.wheres, row) && Holds(p, row)
  {
    var r := q.(wheres := q.wheres + [p]);
    assert forall i :: 0 <= i < |q.wheres| ==> r.wheres[i] == q.wheres[i];
    assert r.wheres[|q.wheres|] == p;
    r
  }

  /** `query.with(path)`: one more eager-load path; the filter is untouched. */
  function With(q: Query, path: string): (r: Query)
    ensures r.entity == q.entity && r.wheres == q.wheres
    ensures |r.withs| == |q.withs| + 1 && r.withs[..|q.withs|] == q.withs
    ensures r.withs[|q.withs|] == path
  {
    q.(withs := q.withs + [path])
  }

  /** `query.get()`: the entity's rows admitted by every `where`, in table
      order; an entity without a table is an error. */
  function Get(store: Store, q: Query): (r: Result<seq<Row>>)
    ensures r.Ok? <==> q.entity in store
    ensures r.Ok? ==> Seqs.SubSeq(r.value, store[q.entity])
    ensures r.Ok? ==> forall i :: 0 <= i < |r.value| ==> Admits(q.wheres, r.value[i])
    ensures r.Ok? ==> forall i :: 0 <= i < |store[q.entity]| && Admits(q.wheres, store[q.entity][i]) ==>
      store[q.entity][i] in r.value
  {
    if q.entity !in store then Err(UnknownEntity(q.entity))
    else Ok(Seqs.Filter(store[q.entity], row => Admits(q.wheres, row)))
  }

  /** `get` keeps every admitted row as often as the table holds it, and
      no other row. */
  lemma GetCounts(store: Store, q: Query)
    requires q.entity in store
    ensures forall x :: multiset(Get(store, q).value)[x] == if Admits(q.wheres, x) then multiset(store[q.entity])[x] else 0
  {
    var p := row => Admits(q.wheres, row);
    assert Get(store, q).value == Seqs.Filter(store[q.entity], p);
    Seqs.FilterCounts(store[q.entity], p);
  }

  /** Eager-load paths do not change which rows `get` returns. */
  lemma GetIgnoresWiths(store: Store, q: Query, path: string)
    ensures Get(store, With(q, path)) == Get(store, q)
  {
  }

  /** A `where` gate that returned `true` admits every row. */
  lemma {:induction false} GateTrueKeepsGet(store: Store, q: Query)
    ensures Get(store, Where(q, Gate(true))) == Get(store, q)
  {
    var r := Where(q, Gate(true));
    if q.entity in store {
      Seqs.FilterSame(store[q.entity], row => Admits(r.wheres, row), row => Admits(q.wheres, row));
    }
  }

  /** A `where` gate that returned `false` rejects every row. */
  lemma {:induction false} GateFalseEmptiesGet(store: Store, q: Query)
    requires q.entity in store
    ensures Get(store, Where(q, Gate(false))) == Ok([])
  {
    var r := Where(q, Gate(false));
    Seqs.FilterNone(store[q.entity], row => Admits(r.wheres, row));
  }
}

=== FILE: relation.dfy ===
/** The behaviour every relation descriptor shares: adding a load request's
    constraint to the query that resolves the relation. */
module Relation {
  import opened Values
  import opened Query
  import Paths

  /** The load names a single relation (no `.` in it). */
  predicate SingleSegment(name: string)
  {
    |Paths.Split(name)| == 1
  }

  /** `addConstraint`. A dotted name forwards everything after its first
      segment as a nested eager load and does nothing else. A single-segment
      name runs the constraint, if any; a boolean result becomes a `where`
      gate and any other result leaves the query as it is. */
  function AddConstraint(q: Query, load: LoadRequest): (r: Query)
    ensures r.entity == q.entity
    ensures !SingleSegment(load.name) ==>
      Paths.Dot in load.name &&
      r.wheres == q.wheres &&
      r.withs == q.withs + [load.name[Paths.FirstDot(load.name) + 1..]]
    ensures SingleSegment(load.name) ==> r.withs == q.withs
    ensures SingleSegment(load.name) && load.constraint.None? ==> r == q
    ensures SingleSegment(load.name) && load.constraint.Some? && load.constraint.value(q).None? ==> r == q
    ensures SingleSegment(load.name) && load.constraint.Some? && load.constraint.value(q).Some? ==>
      r.wheres == q.wheres + [Gate(load.constraint.value(q).value)]
  {
    var relations := Paths.Split(load.name);
    if |relations| != 1 then
      With(q, Paths.Tail(load.name))
    else
      match load.constraint
      case None => q
      case Some(c) =>
        match c(q)
        case Some(result) => Where(q, Gate(result))
        case None => q
  }

  /** For a dotted name the constraint is never consulted: any two
      constraints give the same query. */
  lemma DottedIgnoresConstraint(q: Query, name: string, c1: Option<Constraint>, c2: Option<Constraint>)
    requires !SingleSegment(name)
    ensures AddConstraint(q, LoadRequest(name, c1)) == AddConstraint(q, LoadRequest(name, c2))
  {
  }

  /** A constraint returning `true` leaves the rows `get` returns unchanged. */
  lemma {:induction false} TrueConstraintKeepsGet(store: Store, q: Query, load: LoadRequest)
    requires SingleSegment(load.name)
    requires load.constraint.Some? && load.constraint.value(q) == Some(true)
    ensures Get(store, AddConstraint(q, load)) == Get(store, q)
  {
    GateTrueKeepsGet(store, q);
  }

  /** A constraint returning `false` makes `get` return nothing. */
  lemma {:induction false} FalseConstraintEmptiesGet(store: Store, q: Query, load: LoadRequest)
    requires q.entity in store
    requires SingleSegment(load.name)
    requires load.constraint.Some? && load.constraint.value(q) == Some(false)
    ensures Get(store, AddConstraint(q, load)) == Ok([])
  {
    GateFalseEmptiesGet(store, q);
  }

  /** The chain of names the nested loads of `name` see, one per segment:
      the name itself, then each forwarded remainder. It is well defined
      because every forwarding step removes one segment. */
  function Forwarded(name: string): (chain: seq<string>)
    ensures |chain| == |Paths.Split(name)|
    ensures chain[0] == name
    ensures SingleSegment(chain[|chain| - 1])
    ensures forall i :: 0 <= i < |chain| - 1 ==> !SingleSegment(chain[i]) && chain[i + 1] == Paths.Tail(chain[i])
    decreases |Paths.Split(name)|
  {
    if SingleSegment(name) then [name]
    else
      var rest := Forwarded(Paths.Tail(name));
      assert forall i :: 0 < i < |rest| + 1 ==> ([name] + rest)[i] == rest[i - 1];
      [name] + rest
  }
}

=== FILE: schema.dfy ===
/** Entity schemas: per entity, its ordered field declarations. */
module Schema {
  import opened Values
  import HasManyThrough

  /** The field kinds the normaliser distinguishes. */
  datatype Kind =
    | Attr(default: Value)                                   // attr(default)
    | HasMany(related: string, foreignKey: string)           // hasMany(Related, foreignKey)
    | MorphMany(related: string, morphId: string, morphType: string) // morphMany(Related, id, type)
    | Through(relation: HasManyThrough.HasManyThrough)       // hasManyThrough(...)
  {
    predicate IsRelation()
    {
      !Attr?
    }

    /** The keys this kind attaches to child rows are not `$id`. */
    predicate SparesIdKey()
    {
      match this
      case HasMany(_, fk) => fk != IdKey
      case MorphMany(_, id, ty) => id != IdKey && ty != IdKey
      case _ => true
    }

    /** The entity a relation's nested records belong to. */
    function Related(): string
      requires IsRelation()
    {
      match this
      case HasMany(r, _) => r
      case MorphMany(r, _, _) => r
      case Through(rel) => rel.related
    }
  }

  datatype FieldDef = FieldDef(name: string, kind: Kind)

  /** Entity name to its declared fields, in declaration order. */
  type Schema = map<string, seq<FieldDef>>

  /** The entities some relation of the schema nests records into. */
  function Targets(schema: Schema): (ts: set<string>)
    ensures forall e, i :: e in schema && 0 <= i < |schema[e]| && schema[e][i].kind.IsRelation() ==>
      schema[e][i].kind.Related() in ts
  {
    set e, f | e in schema && f in schema[e] && f.kind.IsRelation() :: f.kind.Related()
  }

  /** `$id` is reserved: no relation writes its keys into it. */
  predicate WellFormed(schema: Schema)
  {
    forall e, i :: e in schema && 0 <= i < |schema[e]| ==> schema[e][i].kind.SparesIdKey()
  }
}

=== FILE: seqs.dfy ===
/** Order-preserving sequence filtering and the subsequence relation it
    produces, the two facts every query result in this model rests on. */
module Seqs {

  /** `a` can be obtained from `b` by deleting elements, keeping order. */
  predicate SubSeq<T(==)>(a: seq<T>, b: seq<T>)
    decreases |b|
  {
    if |a| == 0 then true
    else if |b| == 0 then false
    else if a[0] == b[0] then SubSeq(a[1..], b[1..])
    else SubSeq(a, b[1..])
  }

  /** No element occurs twice. */
  predicate Distinct<T(==)>(s: seq<T>)
  {
    forall i, j :: 0 <= i < j < |s| ==> s[i] != s[j]
  }

  /** `Array.prototype.filter`: the elements satisfying `p`, in order. */
  function Filter<T(==,!new)>(s: seq<T>, p: T -> bool): (r: seq<T>)
    ensures |r| <= |s|
    ensures forall i :: 0 <= i < |r| ==> r[i] in s && p(r[i])
    ensures forall i :: 0 <= i < |s| && p(s[i]) ==> s[i] in r
    ensures SubSeq(r, s)
  {
    if |s| == 0 then []
    else
      var rest := Filter(s[1..], p);
      if p(s[0]) then
        assert ([s[0]] + rest)[1..] == rest;
        [s[0]] + rest
      else
        SubSeqSkip(rest, s);
        rest
  }

  /** `Filter` keeps every passing element as often as `s` holds it, and
      no other element. */
  lemma {:induction false} FilterCounts<T(!new)>(s: seq<T>, p: T -> bool)
    ensures forall x :: multiset(Filter(s, p))[x] == if p(x) then multiset(s)[x] else 0
  {
    if |s| > 0 {
      FilterCounts(s[1..], p);
      FilterCountStep(s, p, Filter(s[1..], p));
    }
  }

  /** One step of `Filter`'s count: the head is kept exactly when it
      passes. */
  lemma FilterCountStep<T(!new)>(s: seq<T>, p: T -> bool, rest: seq<T>)
    requires |s| > 0
    requires forall x :: multiset(rest)[x] == if p(x) then multiset(s[1..])[x] else 0
    ensures p(s[0]) ==> forall x :: multiset([s[0]] + rest)[x] == if p(x) then multiset(s)[x] else 0
    ensures !p(s[0]) ==> forall x :: multiset(rest)[x] == if p(x) then multiset(s)[x] else 0
  {
    assert s == [s[0]] + s[1..];
    assert multiset(s) == multiset([s[0]]) + multiset(s[1..]);
    assert multiset([s[0]] + rest) == multiset([s[0]]) + multiset(rest);
  }

  /** `Array.prototype.map`. */
  function Map<T, U>(s: seq<T>, f: T -> U): (r: seq<U>)
    ensures |r| == |s|
    ensures forall i :: 0 <= i < |s| ==> r[i] == f(s[i])
  {
    seq(|s|, i requires 0 <= i < |s| => f(s[i]))
  }

  /** Dropping the head of the longer sequence keeps a subsequence. */
  lemma SubSeqSkip<T>(a: seq<T>, b: seq<T>)
    requires |b| > 0
    requires SubSeq(a, b[1..])
    ensures SubSeq(a, b)
    decreases |b|, 0
  {
    if |a| > 0 && a[0] == b[0] {
      SubSeqTail(a, b[1..]);
    }
  }

  /** Removing the head of a subsequence keeps a subsequence. */
  lemma {:induction false} SubSeqTail<T>(a: seq<T>, b: seq<T>)
    requires |a| > 0
    requires SubSeq(a, b)
    ensures SubSeq(a[1..], b)
    decreases |b|, 1
  {
    if a[0] == b[0] {
      SubSeqSkip(a[1..], b);
    } else {
      SubSeqTail(a, b[1..]);
      SubSeqSkip(a[1..], b);
    }
  }

  /** Every element of a subsequence is an element of the whole. */
  lemma {:induction false} SubSeqMembers<T>(a: seq<T>, b: seq<T>)
    requires SubSeq(a, b)
    ensures forall x :: x in a ==> x in b
    decreases |b|
  {
    if |a| > 0 {
      if a[0] == b[0] {
        SubSeqMembers(a[1..], b[1..]);
        assert forall x :: x in a ==> x == a[0] || x in a[1..];
      } else {
        SubSeqMembers(a, b[1..]);
      }
    }
  }

  /** A subsequence of a duplicate-free sequence is duplicate-free. */
  lemma {:induction false} SubSeqDistinct<T>(a: seq<T>, b: seq<T>)
    requires SubSeq(a, b)
    requires Distinct(b)
    ensures Distinct(a)
    decreases |b|
  {
    if |a| > 0 {
      assert Distinct(b[1..]) by {
        forall i, j | 0 <= i < j < |b[1..]| ensures b[1..][i] != b[1..][j] {
          assert b[1..][i] == b[i + 1] && b[1..][j] == b[j + 1];
        }
      }
      if a[0] == b[0] {
        SubSeqDistinct(a[1..], b[1..]);
        SubSeqMembers(a[1..], b[1..]);
        assert b[0] !in b[1..];
        forall i, j | 0 <= i < j < |a| ensures a[i] != a[j] {
          if i == 0 {
            assert a[j] == a[1..][j - 1];
            assert a[j] in b[1..];
          } else {
            assert a[i] == a[1..][i - 1] && a[j] == a[1..][j - 1];
          }
        }
      } else {
        SubSeqDistinct(a, b[1..]);
      }
    }
  }

  /** Filtering by two predicates that agree on the elements gives the same result. */
  lemma {:induction false} FilterSame<T(!new)>(s: seq<T>, p: T -> bool, q: T -> bool)
    requires forall i :: 0 <= i < |s| ==> p(s[i]) == q(s[i])
    ensures Filter(s, p) == Filter(s, q)
  {
    if |s| > 0 {
      FilterSame(s[1..], p, q);
    }
  }

  /** Filtering by a predicate no element satisfies gives nothing. */
  lemma {:induction false} FilterNone<T(!new)>(s: seq<T>, p: T -> bool)
    requires forall i :: 0 <= i < |s| ==> !p(s[i])
    ensures Filter(s, p) == []
  {
    if |s| > 0 {
      FilterNone(s[1..], p);
    }
  }
}

=== FILE: tables.dfy ===
/** The keyed table store: each table addresses its rows by `$id`, and
    creating a row whose `$id` is already present merges field by field. */
module Tables {
  import opened Values

  /** The addressing key of a row. */
  function KeyOf(row: Row): Value
  {
    Field(row, IdKey)
  }

  /** No two rows of the table share an `$id`. */
  predicate Keyed(t: Table)
  {
    forall i, j :: 0 <= i < j < |t| ==> KeyOf(t[i]) != KeyOf(t[j])
  }

  /** Every table of the store is keyed. */
  predicate KeyedStore(s: Store)
  {
    forall e :: e in s ==> Keyed(s[e])
  }

  /** The table of an entity; an entity never written to has none. */
  function TableOf(s: Store, e: string): Table
  {
    if e in s then s[e] else []
  }

  /** Position of the first row addressed by `k`, if any. */
  function Find(t: Table, k: Value): (i: Option<nat>)
    ensures i.Some? ==> i.value < |t| && KeyOf(t[i.value]) == k
    ensures i.Some? ==> forall j :: 0 <= j < i.value ==> KeyOf(t[j]) != k
    ensures i.None? ==> forall j :: 0 <= j < |t| ==> KeyOf(t[j]) != k
  {
    if |t| == 0 then None
    else if KeyOf(t[0]) == k then Some(0)
    else match Find(t[1..], k)
      case None => None
      case Some(j) => Some(j + 1)
  }

  /** The row addressed by `k`. */
  function Lookup(t: Table, k: Value): (r: Option<Row>)
    ensures r.Some? ==> KeyOf(r.value) == k && r.value in t
  {
    match Find(t, k)
    case None => None
    case Some(i) => Some(t[i])
  }

  /** A lookup comes back empty exactly when no row carries the key. */
  lemma LookupNone(t: Table, k: Value)
    ensures Lookup(t, k).None? <==> forall i :: 0 <= i < |t| ==> KeyOf(t[i]) != k
  {
  }

  /** Creating `row` in a table: an existing row with the same `$id` is
      overwritten field by field (fields it has that `row` lacks survive);
      otherwise the row is appended. */
  function Upsert(t: Table, row: Row): (r: Table)
    ensures Lookup(r, KeyOf(row)) ==
      Some(if Lookup(t, KeyOf(row)).Some? then Lookup(t, KeyOf(row)).value + row else row)
    ensures forall k :: k != KeyOf(row) ==> Lookup(r, k) == Lookup(t, k)
    ensures Keyed(t) ==> Keyed(r)
    ensures |r| == |t| + (if Lookup(t, KeyOf(row)).Some? then 0 else 1)
  {
    var k := KeyOf(row);
    match Find(t, k)
    case None =>
      var r := t + [row];
      assert KeyOf((row)) == k;
      assert Find(r, k) == Some(|t|) by { FindAppend(t, row, k); }
      forall k' | k' != k ensures Lookup(r, k') == Lookup(t, k') {
        FindAppend(t, row, k');
      }
      r
    case Some(i) =>
      var merged := t[i] + row;
      assert KeyOf(merged) == k;
      var r := t[i := merged];
      FindUpdate(t, i, merged);
      r
  }

  /** Looking up in a table with one more row at the end. */
  lemma {:induction false} FindAppend(t: Table, row: Row, k: Value)
    ensures Find(t + [row], k) ==
      (if Find(t, k).Some? then Find(t, k) else if KeyOf(row) == k then Some(|t|) else None)
  {
    if |t| > 0 {
      assert (t + [row])[1..] == t[1..] + [row];
      FindAppend(t[1..], row, k);
    }
  }

  /** Replacing a row by one with the same key moves no key. */
  lemma {:induction false} FindUpdate(t: Table, i: nat, row: Row)
    requires i < |t| && KeyOf(row) == KeyOf(t[i])
    ensures forall k :: Find(t[i := row], k) == Find(t, k)
    ensures Keyed(t) ==> Keyed(t[i := row])
  {
    if i > 0 {
      FindUpdate(t[1..], i - 1, row);
      assert t[i := row][1..] == t[1..][i - 1 := row];
    }
  }

  /** `row` is contained in `big`: every field of `row` is in `big` with
      the same value. */
  predicate Extends(big: Row, row: Row)
  {
    forall f :: f in row ==> f in big && big[f] == row[f]
  }

  /** Creating the same row twice leaves the table as creating it once. */
  lemma UpsertIdempotent(t: Table, row: Row)
    requires Keyed(t)
    ensures Upsert(Upsert(t, row), row) == Upsert(t, row)
  {
    var k := KeyOf(row);
    var once := Upsert(t, row);
    match Find(t, k)
    case None =>
      FindAppend(t, row, k);
      assert Find(once, k) == Some(|t|);
      var m := row + row;
      assert m == row;
    case Some(i) =>
      FindUpdate(t, i, t[i] + row);
      assert Find(once, k) == Some(i);
      assert (t[i] + row) + row == t[i] + row;
      assert once[i := (t[i] + row) + row] == once;
  }

  /** Creating a row whose `$id` is new appends it. */
  lemma UpsertFresh(t: Table, row: Row)
    requires forall i :: 0 <= i < |t| ==> KeyOf(t[i]) != KeyOf(row)
    ensures Upsert(t, row) == t + [row]
  {
  }

  /** Creating `rows` one after the other. */
  function UpsertAll(t: Table, rows: seq<Row>): (r: Table)
    ensures Keyed(t) ==> Keyed(r)
    decreases |rows|
  {
    if |rows| == 0 then t else UpsertAll(Upsert(t, rows[0]), rows[1..])
  }

  /** `a` overwritten by `f`, which carries the same key, keeps that key. */
  lemma KeyOfMerge(a: Row, f: Row)
    requires KeyOf(f) == KeyOf(a)
    ensures KeyOf(a + f) == KeyOf(a)
  {
  }

  /** A key held by exactly one row is found there. */
  lemma FindOnly(t: Table, p: nat, k: Value)
    requires p < |t| && KeyOf(t[p]) == k
    requires forall q :: 0 <= q < |t| && q != p ==> KeyOf(t[q]) != k
    ensures Find(t, k) == Some(p)
  {
  }

  /** `rows` with the first `i` of them overwritten by the matching `fs`. */
  function MergedPrefix(rows: seq<Row>, fs: seq<Row>, i: nat): (r: seq<Row>)
    requires |fs| == |rows|
    ensures |r| == |rows|
    ensures forall j :: 0 <= j < |rows| ==> r[j] == if j < i then rows[j] + fs[j] else rows[j]
  {
    seq(|rows|, j requires 0 <= j < |rows| => if j < i then rows[j] + fs[j] else rows[j])
  }

  /** Creating rows whose keys are already held, once each, by the rows
      `rows` after `t`: each is merged into its row in place and the table
      keeps its length and order. */
  lemma UpsertAllExisting(t: Table, rows: seq<Row>, fs: seq<Row>)
    requires |fs| == |rows|
    requires forall j :: 0 <= j < |rows| ==> KeyOf(fs[j]) == KeyOf(rows[j])
    requires forall j, l :: 0 <= j < l < |rows| ==> KeyOf(rows[j]) != KeyOf(rows[l])
    requires forall i, j :: 0 <= i < |t| && 0 <= j < |rows| ==> KeyOf(t[i]) != KeyOf(rows[j])
    ensures UpsertAll(t + rows, fs) == t + MergedPrefix(rows, fs, |rows|)
  {
    assert MergedPrefix(rows, fs, 0) == rows;
    assert fs[0..] == fs;
    UpsertAllFrom(t, rows, fs, 0);
  }

  /** The same, once the first `i` rows are merged. */
  lemma {:induction false} UpsertAllFrom(t: Table, rows: seq<Row>, fs: seq<Row>, i: nat)
    requires |fs| == |rows| && i <= |rows|
    requires forall j :: 0 <= j < |rows| ==> KeyOf(fs[j]) == KeyOf(rows[j])
    requires forall j, l :: 0 <= j < l < |rows| ==> KeyOf(rows[j]) != KeyOf(rows[l])
    requires forall i, j :: 0 <= i < |t| && 0 <= j < |rows| ==> KeyOf(t[i]) != KeyOf(rows[j])
    ensures UpsertAll(t + MergedPrefix(rows, fs, i), fs[i..]) == t + MergedPrefix(rows, fs, |rows|)
    decreases |rows| - i
  {
    if i == |rows| {
      assert fs[i..] == [];
    } else {
      var u := t + MergedPrefix(rows, fs, i);
      var k := KeyOf(fs[i]);
      forall j | 0 <= j < |rows| ensures KeyOf(MergedPrefix(rows, fs, i)[j]) == KeyOf(rows[j]) {
        KeyOfMerge(rows[j], fs[j]);
      }
      assert KeyOf(u[|t| + i]) == k;
      forall q | 0 <= q < |u| && q != |t| + i ensures KeyOf(u[q]) != k {
        if q < |t| {
          assert u[q] == t[q];
        } else {
          assert u[q] == MergedPrefix(rows, fs, i)[q - |t|];
        }
      }
      FindOnly(u, |t| + i, k);
      assert Upsert(u, fs[i]) == u[|t| + i := u[|t| + i] + fs[i]];
      assert u[|t| + i := u[|t| + i] + fs[i]] == t + MergedPrefix(rows, fs, i + 1);
      assert fs[i..][1..] == fs[i + 1..];
      UpsertAllFrom(t, rows, fs, i + 1);
    }
  }
}

=== FILE: values.dfy ===
/** Values of the normalised store: a small closed model of the JavaScript
    values the relation layer looks at, rows as field maps, tables as
    sequences of rows in insertion order, and the error taxonomy. */
module Values {

  /** The JavaScript values the core distinguishes. `Undefined` is what a
      missing field reads as; arrays and plain objects nest. */
  datatype Value =
    | Undefined
    | Null
    | Bool(b: bool)
    | Num(n: int)
    | Str(s: string)
    | Arr(items: seq<Value>)
    | Obj(fields: map<string, Value>)

  /** A flat record: field name to value. */
  type Row = map<string, Value>

  /** The rows of one entity, in insertion order. */
  type Table = seq<Row>

  /** Entity name to table. */
  type Store = map<string, Table>

  /** The synthetic addressing key every stored row carries. */
  const IdKey: string := "$id"

  /** The primary key field of every entity in this model. */
  const PrimaryKey: string := "id"

  /** Reading `row[f]`: a missing field is `undefined`. */
  function Field(row: Row, f: string): (v: Value)
    ensures f !in row ==> v == Undefined
    ensures f in row ==> v == row[f]
  {
    if f in row then row[f] else Undefined
  }

  /** `x && typeof x === 'object'`: a truthy value whose type is object,
      that is an array or a plain object (`null` is excluded by truthiness). */
  predicate ObjectLike(v: Value)
  {
    v.Arr? || v.Obj?
  }

  /** JavaScript's `typeof` on the modelled values; `null` and arrays are
      both `'object'`. */
  function TypeOf(v: Value): string
  {
    match v
    case Undefined => "undefined"
    case Null => "object"
    case Bool(_) => "boolean"
    case Num(_) => "number"
    case Str(_) => "string"
    case Arr(_) => "object"
    case Obj(_) => "object"
  }

  /** JavaScript truthiness on the modelled values (numbers are integers,
      so `NaN` does not arise). */
  predicate Truthy(v: Value)
  {
    match v
    case Undefined => false
    case Null => false
    case Bool(b) => b
    case Num(n) => n != 0
    case Str(s) => s != ""
    case Arr(_) => true
    case Obj(_) => true
  }

  /** The object-like test is the conjunction of truthiness and
      `typeof === 'object'`: it keeps arrays and plain objects and nothing
      else, `null` included. */
  lemma ObjectLikeIsTruthyObject(v: Value)
    ensures ObjectLike(v) <==> Truthy(v) && TypeOf(v) == "object"
  {
  }

  /** A field counts as missing when it is absent or holds `null`. */
  predicate Missing(row: Row, f: string)
  {
    Field(row, f) == Undefined || Field(row, f) == Null
  }

  /** The structural errors of the core; everything else is total. */
  datatype Error =
    | UnknownEntity(name: string)
    | MalformedInput
    | MissingKey(entity: string)

  datatype Result<+T> = Ok(value: T) | Err(error: Error) {
    predicate IsFailure() { Err? }

    function PropagateFailure<U>(): Result<U>
      requires Err?
    {
      Err(error)
    }

    function Extract(): T
      requires Ok?
    {
      value
    }
  }

  datatype Option<+T> = None | Some(value: T)
}
